=== FILE: README.md ===
# node-http-cache, modelled in Dafny

node-http-cache keeps local copies of the JSON datasets behind a set of HTTP
services. Each configured service is fetched on a cron schedule. Its reply
body is indexed on the fields the service names, and the whole snapshot
(configuration, data, reply headers, indexes) is committed under the
service's name to a two-tier store: an in-memory map in front of a LevelDB
database on disk. A lookup returns either a service's whole dataset or the
records that an index resolves for one field value. The factory returns one
process-wide instance.

The model has five modules:

- `Common` (common.dfy) holds optional values, results and JavaScript truthiness of optional strings. It also renders integers in decimal and reads decimal digits back.
- `Values` (values.dfy) holds parsed JSON records, with numbers limited to JavaScript's safe integers, |n| ≤ 2^53 − 1. It also gives the text key JavaScript's `String()` produces for a field value; `undefined` becomes `"undefined"`.
- `Indexes` (indexes.dfy) models `build` and `find` from lib/indexes.js. `Build` is the code's single pass: records outer, fields inner, one push per step. Next to it, `Positions`, `Select` and `Filter` define each bucket and each lookup result field by field, as an independent reference. Lemmas prove that the two agree.
- `Storage` (storage.dfy) models lib/storage.js as a state machine over `Store(path, memory, disk)`. The disk's answer to a write or a read is a parameter: success, or an I/O error message.
- `Cache` (cache.dfy) models index.js:
  - configuration checking and normalisation;
  - the HTTP status rule and its error text;
  - the snapshot a refresh commits;
  - the run-on-init decision taken at startup;
  - the lookup dispatch;
  - the factory singleton.

  HTTP replies, disk replies and Node's status-text table are parameters. Emitted events come back as a trace.

The model follows the code, including where its behaviour may surprise a
caller:

- A failed disk write is not undone in memory. `Storage.Put` writes memory unconditionally, so a snapshot whose commit failed is still served from memory (`Cache.RefreshedDataServed`).
- `itemsPath` is accepted but never applied: the whole reply body is the data (`Cache.ItemsPathIgnored`).
- A lookup on a field that is not indexed fails. It does not return an empty list. The same holds for every lookup in the index of an empty dataset, because field maps are created inside the loop over the records (`Indexes.FindUnindexedFails`).
- Jobs always run in `GMT-0`. Normalisation drops the service and configuration timezones before the scheduler reads them (`Cache.ConfiguredTimezonesIgnored`).
- `getKeys` reports only the memory keys once memory holds any entry, so it can miss keys that are only on disk (`Storage.GetKeysMissesDiskOnlyKeys`).
- A field listed twice in `indexes` gets every position pushed twice (`Indexes.DuplicateFieldDoublesPositions`).

## Model

| member | source | states |
|---|---|---|
| Indexes.Push | lib/indexes.js:40-46 | One inner step: the field's map and the bucket are created when missing. The position is appended to exactly that bucket; every other bucket is unchanged. No bucket is ever left empty. |
| Indexes.AddRecordBuckets | lib/indexes.js:39-47 | One pass of the inner loop (`AddRecord`). After one record, each field's bucket for the record's own key gains the record's position, once per listing of the field. Every other bucket is unchanged. The table's fields grow by the listed fields. |
| Indexes.BuildPrefixBuckets | lib/indexes.js:38-48 | The outer loop (`BuildPrefix`). After the first n records, every bucket equals the per-field reference `Positions`. The table has no fields before the first record and exactly the listed fields after it. No bucket is empty. |
| Indexes.PositionsMembership | lib/indexes.js:38-48 | A position is in a reference bucket exactly when it is below n, its record's value has the bucket's key, and the field is listed. |
| Indexes.PositionsAscending | lib/indexes.js:38-48 | A reference bucket for a field listed once is strictly increasing, because records are visited in data order. |
| Indexes.PositionsNonDecreasing | lib/indexes.js:38-48 | Whatever the number of listings, a reference bucket is in non-decreasing order. |
| Indexes.ProjectPositions | lib/indexes.js:70-76 | Projecting a reference bucket onto the data gives the reference selection `Select`. |
| Indexes.BuildSound | lib/indexes.js:38-48 | Every position in every built bucket indexes the data. |
| Indexes.BuildIndexes | lib/indexes.js:34-48 | Built from data, the table's fields are exactly the listed ones. Built from an empty dataset, the table is empty. No bucket is empty. |
| Indexes.Build | lib/indexes.js:21-50 | Every bucket equals the reference `Positions`, holding each matching position once per listing of the field. Every position addresses the data. With no field list the table is empty. |
| Indexes.BuildIgnoresItemsPath | lib/indexes.js:21-24 | `build` reads only the data and the field list; `itemsPath` changes nothing. |
| Indexes.BuildBucketKeys | lib/indexes.js:43-46 | A listed field has a bucket for a key if and only if some record's value for that field has that key. |
| Indexes.BuildExactlyOneBucket | lib/indexes.js:43-46 | Each record position lies in the bucket keyed by its own value's key, and in no other bucket of that field. |
| Indexes.BuildBucketOrdered | lib/indexes.js:38-48 | For a field listed once, every bucket lists positions in strictly increasing data order. |
| Indexes.BuildBucketSorted | lib/indexes.js:38-48 | Whatever the number of listings, every built bucket is in non-decreasing data order. |
| Indexes.BuildBucketMultiplicity | lib/indexes.js:25-46 | A built bucket holds each position whose record has the bucket's key once per listing of the field, and no other position. |
| Indexes.DuplicateFieldDoublesPositions | lib/indexes.js:25-33 | A field listed twice gets one builder per listing, so its single record's position appears twice in the bucket. |
| Indexes.Find | lib/indexes.js:53-81 | A falsy index key returns the data unchanged. An index key that is not in the table fails. A value with no bucket gives an empty list. Otherwise the result is the bucket's records, in bucket order. |
| Indexes.FindBuildRoundTrip | lib/indexes.js:21-81 | Looking up a value in the index built over non-empty data returns exactly the records whose value has the same key, in data order. |
| Indexes.FindUnindexedFails | lib/indexes.js:65 | Looking up a field that is not indexed fails, and so does every lookup over an empty dataset. |
| Indexes.FindUnknownValueEmpty | lib/indexes.js:65-77 | Looking up a value that no record holds returns an empty list. |
| Indexes.UsersActiveLookup | test/index.js:69-75 | In the users example, the lookup `active: true` returns barney's record only. |
| Indexes.MissingFieldLookup | lib/indexes.js:43-46 | A record that lacks the indexed field `id` is filed under, and found by, the key `"undefined"`. |
| Values.ToKey | lib/indexes.js:43-46 | A missing field gives the key `"undefined"`. A string value is its own key. |
| Values.NumberKeyParses | lib/indexes.js:43-46 | A number's key reads back as the number: an optional minus sign, then the decimal digits of its magnitude. |
| Values.KeysCollide | lib/indexes.js:43-46 | Distinct values share a bucket: every number and its decimal string, `undefined` and `"undefined"`, `null` and `"null"`, each boolean and its name, and any two objects. |
| Values.ArrayKeyJoins | lib/indexes.js:65 | The empty array has the empty key. A one-element array has its element's key, or the empty key for `null`. Two strings give their comma-joined text. `[1, null, "x"]` has the key `"1,,x"`, the key of that string. |
| Storage.Init | lib/storage.js:27-31 | The database path is the location followed by `/node-http-cache.db`. Memory starts empty, the disk keeps its contents, and the two tiers agree. |
| Storage.Put | lib/storage.js:8-25 | Memory gets the value whatever the disk replies. The result succeeds, with the value, if and only if the disk write succeeds, and the disk then holds the value. A failed write leaves the disk as it was. No other key changes in either tier. |
| Storage.Get | lib/storage.js:33-53 | A truthy memory entry answers without touching the disk. Otherwise: a disk value is copied into memory and returned; a missing key or a disk failure rejects and changes nothing. The disk and every other memory entry are unchanged. |
| Storage.GetKeys | lib/storage.js:55-69 | Returns the memory keys when memory holds any entry, otherwise the disk keys. |
| Storage.PutThenGet | lib/storage.js:20-50 | Read your writes: `get` after `put` returns a truthy written value, even when the disk write failed. |
| Storage.PutPreservesCoherence | lib/storage.js:8-25 | A successful `put` keeps memory in agreement with the disk. |
| Storage.GetPreservesCoherence | lib/storage.js:33-53 | Every `get` keeps memory in agreement with the disk: memory is only filled from the disk. |
| Storage.FailedPutBreaksCoherence | lib/storage.js:11-20 | A failed `put` rejects with the disk's error and leaves memory disagreeing with the disk. |
| Storage.GetKeysOnDisk | lib/storage.js:55-69 | In an agreeing store, `getKeys` lists only keys that are on disk. With empty memory it lists all of them. |
| Storage.GetKeysMissesDiskOnlyKeys | lib/storage.js:56-68 | Once memory holds one key, a key that is only on disk is not reported. |
| Storage.GetTwiceAgrees | lib/storage.js:36-50 | Repeating a successful `get` of a truthy value returns the same value from memory, whatever the disk would answer. |
| Cache.ConfigError.Message | index.js:32-35 | The assertion message reads back as the entry number and the property, so distinct errors have distinct messages. |
| Cache.ValidServiceLacksNothing | index.js:32-35 | An entry passes the assertions exactly when it lacks none of the asserted properties. |
| Cache.ServiceError | index.js:31-35 | The error names the entry's position and a property the entry lacks. No property asserted earlier is lacking. |
| Cache.Normalise | index.js:36-42 | A checked service keeps exactly the name, cron expression, items path, indexes and HTTP options of its entry. |
| Cache.NormaliseFrom | index.js:31-43 | The loop succeeds if and only if every entry passes the assertions. On success it keeps their count and order. Otherwise it fails with the first failing entry's assertion. |
| Cache.BuildConfig | index.js:24-45 | Fails with the first entry that lacks a truthy name, cron expression, HTTP options or URL. Otherwise it keeps every service in order and defaults the location to `/tmp`. |
| Cache.FirstInvalidDecides | index.js:31-35 | Whatever the location and timezone, the first entry failing an assertion decides the error. |
| Cache.FirstBadEntryReported | index.js:31-35 | When entry 1 lacks a URL and entry 2 lacks a name, the error names entry 1's URL. |
| Cache.NameCheckedFirst | index.js:32-35 | The name is asserted before the other properties. |
| Cache.DefaultLocationExample | index.js:27-29 | With no location configured, the store lives under `/tmp`. The entry's timezone is not carried over. |
| Cache.SchedulerTimezone | index.js:167 | The first truthy of the service and configuration timezones, otherwise `GMT-0`. Never empty. |
| Cache.Accepted | index.js:52 | A status is accepted exactly when it is in the 2xx or 3xx class. |
| Cache.StatusMessage | index.js:79-80 | For a non-negative status, the message's leading digits read back as the status. The rest is ` >> ` followed by the table's reason, or `undefined` when the table lacks the status. |
| Cache.Download | index.js:48-84 | A transport failure fails the download. A status outside [200, 400) fails with `'<status> >> <reason>'`. An accepted reply passes unchanged. |
| Cache.StatusBoundaries | index.js:52 | 199 and 400 are rejected; 200, 304 and 399 are accepted. |
| Cache.RejectedStatusText | index.js:79-80 | A 500 reply is reported as `500 >> ` followed by its reason text. |
| Cache.UnknownStatusText | index.js:79-80 | A status missing from the status-text table is reported with the reason `undefined`. |
| Cache.MakeSnapshot | index.js:93-112 | The committed snapshot holds the service, the reply body as data, the reply headers, and the indexes built over that body. Every position in those indexes addresses the data. |
| Cache.Refresh | index.js:86-136 | Exactly one event is emitted. Success, with `updateData` and the body, happens if and only if the download is accepted and the commit succeeds. A failed download leaves the store untouched. An accepted one commits the snapshot under the service name. A failed commit reports the disk's error as its cause. |
| Cache.RefreshKeepsStoreSound | index.js:86-136 | A refresh keeps every stored snapshot's indexes within its data. |
| Cache.RefreshKeepsCoherence | index.js:113-128 | A refresh whose commit succeeds, or that fails before committing, keeps memory in agreement with the disk. |
| Cache.FailedFetchKeepsPreviousSnapshot | index.js:129-134 | A failed download reports an error and leaves every later lookup answering exactly as before. |
| Cache.RefreshedDataServed | index.js:113-128 | After an accepted download, the new data is served even when the commit to disk failed. |
| Cache.RefreshThenIndexLookup | index.js:188-209 | End to end: after an accepted refresh, an index lookup returns exactly the matching records in data order. |
| Cache.Get | index.js:188-225 | Lookup dispatch. A read failure rejects, wrapped with the service name. A truthy index key answers through `find`. Otherwise it returns the whole data. Exactly one `getData` or `getError` event is emitted. |
| Cache.UnknownServiceRejected | index.js:194-224 | A service with no snapshot in either tier is rejected with the disk's not-found error and one `getError` event. |
| Cache.RepeatedLookupAgrees | index.js:194-209 | A repeated lookup returns the same records as the first successful one. |
| Cache.ItemsPathIgnored | index.js:93-111 | Two services that differ only in `itemsPath` commit the same data and indexes. |
| Cache.StartJobs | index.js:145-172 | One job per service, in service order, on the service's cron expression and in `GMT-0`. The startup reads leave the disk and the path alone and keep a sound store sound. |
| Cache.StartJobsDecisions | index.js:149-171 | Every job uses its service's cron expression and `GMT-0`. A job runs on init whenever no snapshot is on disk, and exactly then when its read did not fail. |
| Cache.ConfiguredTimezonesIgnored | index.js:167 | Whatever timezones are configured, every job's timezone is `GMT-0`. |
| Cache.RunOnInitIffNoSnapshot | index.js:152-168 | On a first start with no read failure, a job runs at once if and only if the disk holds no snapshot for its service. |
| Cache.Factory | index.js:179-229 | An existing instance is returned unchanged. Otherwise the configuration is checked, the store is opened at its location over the disk's contents, and one job is created per service. When every snapshot on disk is sound, so is the new store. |
| Cache.FactorySingleton | index.js:17-20 | A second factory call returns the first instance and ignores its own arguments. |

## Left out

- `close` (lib/storage.js:71-81) only closes the database handle. It has no effect the model could state.
- HTTP transport is not modelled: the request, `body.read()`, gzip decompression and `JSON.parse`. The parsed reply, or a transport error message, is a parameter of `Cache.Download`.
- LevelDB itself is not modelled: its on-disk format, JSON value encoding and key ordering. The disk is a map, and its replies are parameters. `Storage.GetKeys` returns a set, because the key stream's order is LevelDB's.
- Cron timing and concurrency are not modelled: when ticks fire, overlapping refreshes, and the asynchronous interleaving of the startup reads. Startup reads run in service order, and a refresh is one atomic step.
- Events are returned as a trace rather than emitted through `EventEmitter`. Listeners are not modelled. "Exactly one event" assumes no listener throws: a throwing `updateData` or `getData` listener (index.js:124, index.js:213) would send control to the failure handler (index.js:129-133, index.js:219-223), which emits an error event as well.
- Error stack texts are not modelled. A failure's cause is kept structured (`Cache.Cause`), wrapped with the service name.
- Numbers in records are safe integers only (`Values.SafeInteger`). Non-integral numbers, integers beyond 2^53 - 1 in magnitude, and their `String()` rendering (exponent notation, rounding) are not modelled.
- Records are JSON objects. A non-array reply body, iterated by its own keys, is not modelled. Neither are non-object elements of the reply array: a `null` element makes `build` throw a TypeError at lib/indexes.js:43 whenever a field is indexed, so the refresh would emit `updateError` and commit nothing (index.js:92-97, index.js:129-133). `Cache.Refresh` therefore has no indexing failure path.
- Keys inherited from `Object.prototype` (such as `constructor` or `toString`) are not modelled in any of the four places the code looks keys up in plain objects: memory keys of the store (lib/storage.js:36-37), field values read from records (lib/indexes.js:43-46), and field names of the index table and bucket keys (lib/indexes.js:40-46, lib/indexes.js:65). The model treats such keys as absent until set. In the code a service named `toString` is found in memory at startup, so its job does not run on init, against `Cache.RunOnInitIffNoSnapshot`. A lookup on the unindexed field `constructor` returns an empty list instead of failing, against `Indexes.FindUnindexedFails`. A record read for an inherited field name such as `constructor` yields the inherited value, so a record lacking that field is filed under `String(Object)` rather than `"undefined"`; `Indexes.MissingFieldLookup` and the `"undefined"` key of `Values.FieldOf` hold only for field names that are not inherited.
- `Indexes.Find` requires every bucket position to address the data. Tables built by `build` always meet this (`Indexes.BuildSound`). On other tables the code would return `undefined` entries.
- `Cache.Get` requires every stored snapshot to be sound in that sense. Every snapshot a refresh commits is sound (`Cache.MakeSnapshot`, `Cache.RefreshKeepsStoreSound`). Startup keeps a sound store sound (`Cache.StartJobs`), and the factory's store is sound when the disk's snapshots are (`Cache.Factory`).
- `Indexes.BuildBucketOrdered` is stated for a field listed once. For any number of listings the bucket is non-decreasing (`Indexes.BuildBucketSorted`) and holds each matching position once per listing (`Indexes.BuildBucketMultiplicity`, `Indexes.DuplicateFieldDoublesPositions`).
- `Indexes.FindBuildRoundTrip` is stated for a field listed once and non-empty data. The other cases are `Indexes.FindUnindexedFails` and `Indexes.DuplicateFieldDoublesPositions`.
- `Cache.RefreshKeepsCoherence` does not cover a failed commit, which breaks agreement between memory and disk (`Storage.FailedPutBreaksCoherence`).
- `Cache.Factory` takes the current instance as a parameter instead of reading the module-level variable. Both the service and the configuration timezone are absent after normalisation, so `Cache.SchedulerTimezone` is always applied to two absent values.
- `Cache.StatusMessage` states the read-back for non-negative statuses only. A negative status is not a status an HTTP reply carries.

=== FILE: cache.dfy ===
/** The decision logic of index.js that sits between its I/O calls:
    configuration checking and normalisation, the HTTP status rule, the
    snapshot a refresh commits, the run-on-init decision taken at startup,
    the dispatch of a lookup between the whole dataset and an index, and the
    process-wide singleton returned by the factory.

    HTTP replies, the disk's replies and the Node status-text table are
    parameters; events are returned as a trace instead of being emitted. */
module Cache {
  import opened Common
  import opened Values
  import Indexes
  import Storage

  // ---------------------------------------------------------------------------
  // Configuration
  // ---------------------------------------------------------------------------

  /** The request description handed to the HTTP client. */
  datatype HttpOptions = HttpOptions(url: Option<string>, headers: map<string, string>)

  /** One entry of `config.services` as the caller wrote it. */
  datatype ServiceInput = ServiceInput(
    name: Option<string>,
    cronExpression: Option<string>,
    httpOptions: Option<HttpOptions>,
    itemsPath: Option<string>,
    indexes: Option<seq<string>>,
    timezone: Option<string>)

  /** The factory's argument as the caller wrote it. */
  datatype ConfigInput = ConfigInput(location: Option<string>, timezone: Option<string>, services: seq<ServiceInput>)

  /** A checked service: exactly the five properties the code copies over. */
  datatype Service = Service(
    name: string,
    cronExpression: string,
    itemsPath: Option<string>,
    indexes: Option<seq<string>>,
    httpOptions: HttpOptions)

  /** The normalised configuration: a location and the checked services. */
  datatype Config = Config(location: string, services: seq<Service>)

  /** The property a failed configuration assertion names. */
  datatype Property = Name | CronExpression | Url

  /** A failed `assert` during configuration: the entry's position and the
      property it lacks. */
  datatype ConfigError = AssertionError(entry: nat, property: Property) {

    /** The assertion's message text. The name check says `services`, the
        others `service`; a missing `httpOptions` reports the URL. The text
        names the failure unambiguously: it reads back as this error. */
    function Message(): (m: string)
      ensures DecodeMessage(m) == Some(this)
    {
      var k := NatToString(entry);
      NatToStringParses(entry);
      match property
      case Name =>
        NameMessageDecodes(k);
        "services[" + k + NameTail
      case CronExpression =>
        CronMessageDecodes(k);
        "service[" + k + CronTail
      case Url =>
        UrlMessageDecodes(k);
        "service[" + k + UrlTail
    }
  }

  /** Reads an assertion message back into the entry and the property. */
  function DecodeMessage(m: string): Option<ConfigError>
  {
    if |m| >= 9 && m[..9] == "services[" then DecodeEntry(m[9..], NameTail, Name)
    else if |m| >= 8 && m[..8] == "service[" then
      match DecodeEntry(m[8..], CronTail, CronExpression)
      case Some(e) => Some(e)
      case None => DecodeEntry(m[8..], UrlTail, Url)
    else None
  }

  const NameTail: string := "].name must be defined"
  const CronTail: string := "].cronExpression must be defined"
  const UrlTail: string := "].httpOptions.url must be defined"

  /** The entry number leading `rest`, when exactly `tail` follows it. */
  function DecodeEntry(rest: string, tail: string, p: Property): Option<ConfigError>
  {
    var digits := LeadingDigits(rest);
    if digits != "" && rest[|digits|..] == tail then Some(AssertionError(ParseNat(digits), p)) else None
  }

  /** The entry number followed by its tail decodes; followed by a tail of
      another length it does not. */
  lemma DecodeEntryOf(k: string, tail: string, other: string, p: Property)
    requires |k| > 0 && forall i :: 0 <= i < |k| ==> IsDigit(k[i])
    requires |tail| > 0 && !IsDigit(tail[0])
    ensures DecodeEntry(k + tail, tail, p) == Some(AssertionError(ParseNat(k), p))
    ensures |other| != |tail| ==> DecodeEntry(k + tail, other, p) == None
  {
    LeadingDigitsOf(k, tail);
    assert (k + tail)[|k|..] == tail;
  }

  lemma NameMessageDecodes(k: string)
    requires |k| > 0 && forall i :: 0 <= i < |k| ==> IsDigit(k[i])
    ensures DecodeMessage("services[" + k + NameTail) == Some(AssertionError(ParseNat(k), Name))
  {
    SplitMessage("services[", k, NameTail, "services[" + k + NameTail);
    DecodeEntryOf(k, NameTail, NameTail, Name);
  }

  lemma CronMessageDecodes(k: string)
    requires |k| > 0 && forall i :: 0 <= i < |k| ==> IsDigit(k[i])
    ensures DecodeMessage("service[" + k + CronTail) == Some(AssertionError(ParseNat(k), CronExpression))
  {
    SplitMessage("service[", k, CronTail, "service[" + k + CronTail);
    DecodeEntryOf(k, CronTail, CronTail, CronExpression);
  }

  lemma UrlMessageDecodes(k: string)
    requires |k| > 0 && forall i :: 0 <= i < |k| ==> IsDigit(k[i])
    ensures DecodeMessage("service[" + k + UrlTail) == Some(AssertionError(ParseNat(k), Url))
  {
    var m := "service[" + k + UrlTail;
    SplitMessage("service[", k, UrlTail, m);
    DecodeEntryOf(k, UrlTail, CronTail, CronExpression);
    DecodeEntryOf(k, UrlTail, UrlTail, Url);
    assert DecodeEntry(m[8..], CronTail, CronExpression) == None;
  }

  /** A message splits back into its head and the rest, and the head
      `service[` is not the head `services[`. */
  lemma SplitMessage(head: string, k: string, tail: string, m: string)
    requires m == head + k + tail
    requires |k| > 0 && forall i :: 0 <= i < |k| ==> IsDigit(k[i])
    ensures m[..|head|] == head && m[|head|..] == k + tail
    ensures head == "service[" ==> !(|m| >= 9 && m[..9] == "services[")
  {
    if head == "service[" && |m| >= 9 {
      assert m[7] == head[7] == '[';
      assert m[..9][7] == m[7];
    }
  }

  const DefaultLocation: string := "/tmp"
  const DefaultTimezone: string := "GMT-0"

  /** A service entry passes all of the code's assertions. */
  predicate ValidService(s: ServiceInput)
  {
    Truthy(s.name) && Truthy(s.cronExpression) && s.httpOptions.Some? && Truthy(s.httpOptions.value.url)
  }

  /** The entry lacks what the assertion on property `p` demands. */
  predicate Lacks(s: ServiceInput, p: Property)
  {
    match p
    case Name => !Truthy(s.name)
    case CronExpression => !Truthy(s.cronExpression)
    case Url => s.httpOptions.None? || !Truthy(s.httpOptions.value.url)
  }

  /** The order in which the code asserts the properties. */
  function Rank(p: Property): nat
  {
    match p
    case Name => 0
    case CronExpression => 1
    case Url => 2
  }

  /** An entry passes the assertions exactly when it lacks none of the properties. */
  lemma ValidServiceLacksNothing(s: ServiceInput)
    ensures ValidService(s) <==> forall p :: !Lacks(s, p)
  {
    if !ValidService(s) {
      assert Lacks(s, Name) || Lacks(s, CronExpression) || Lacks(s, Url);
    }
  }

  /** The first assertion an invalid entry at position `key` fails, in the
      order the code asserts them. */
  function ServiceError(s: ServiceInput, key: nat): (e: ConfigError)
    ensures e.entry == key
    ensures !ValidService(s) ==> Lacks(s, e.property)
    ensures forall p :: Rank(p) < Rank(e.property) ==> !Lacks(s, p)
  {
    if !Truthy(s.name) then AssertionError(key, Name)
    else if !Truthy(s.cronExpression) then AssertionError(key, CronExpression)
    else AssertionError(key, Url)
  }

  function Normalise(s: ServiceInput): (n: Service)
    requires ValidService(s)
    ensures n.name == s.name.value && n.name != ""
    ensures n.cronExpression == s.cronExpression.value && n.cronExpression != ""
    ensures n.httpOptions == s.httpOptions.value && Truthy(n.httpOptions.url)
    ensures n.itemsPath == s.itemsPath && n.indexes == s.indexes
  {
    Service(s.name.value, s.cronExpression.value, s.itemsPath, s.indexes, s.httpOptions.value)
  }

  /** Entry `j` is the first invalid one at or after position `i`. */
  predicate FirstInvalidFrom(services: seq<ServiceInput>, i: nat, j: nat)
  {
    i <= j < |services| && !ValidService(services[j])
    && forall m :: i <= m < j ==> ValidService(services[m])
  }

  /** The loop over the services from position `i` on. */
  function NormaliseFrom(services: seq<ServiceInput>, i: nat): (r: Result<seq<Service>, ConfigError>)
    requires i <= |services|
    ensures r.Ok? <==> forall j :: i <= j < |services| ==> ValidService(services[j])
    ensures r.Ok? ==> |r.value| == |services| - i
    ensures r.Ok? ==> forall j :: i <= j < |services| ==>
              ValidService(services[j]) && r.value[j - i] == Normalise(services[j])
    ensures r.Err? ==> exists j: nat :: FirstInvalidFrom(services, i, j) && r.error == ServiceError(services[j], j)
    decreases |services| - i
  {
    if i == |services| then Ok([])
    else if !ValidService(services[i]) then
      assert FirstInvalidFrom(services, i, i);
      Err(ServiceError(services[i], i))
    else
      match NormaliseFrom(services, i + 1)
      case Err(e) =>
        FirstInvalidShift(services, i, e);
        Err(e)
      case Ok(rest) =>
        var r := [Normalise(services[i])] + rest;
        assert forall j :: i < j < |services| ==> ValidService(services[j]) && r[j - i] == Normalise(services[j]);
        Ok(r)
  }

  /** A first invalid entry after a valid entry `i` is also the first invalid
      entry from `i` on. */
  lemma FirstInvalidShift(services: seq<ServiceInput>, i: nat, e: ConfigError)
    requires i < |services| && ValidService(services[i])
    requires exists j: nat :: FirstInvalidFrom(services, i + 1, j) && e == ServiceError(services[j], j)
    ensures exists j: nat :: FirstInvalidFrom(services, i, j) && e == ServiceError(services[j], j)
  {
    var j: nat :| FirstInvalidFrom(services, i + 1, j) && e == ServiceError(services[j], j);
    assert FirstInvalidFrom(services, i, j);
  }

  /** `buildConfig`: fails on the first service lacking a truthy name, cron
      expression, `httpOptions` or URL; otherwise keeps the services' count
      and order, each reduced to its five copied properties, and defaults the
      location to `/tmp`. Timezones are not carried over. */
  function BuildConfig(c: ConfigInput): (r: Result<Config, ConfigError>)
    ensures r.Ok? <==> forall j :: 0 <= j < |c.services| ==> ValidService(c.services[j])
    ensures r.Err? ==> exists j: nat :: FirstInvalidFrom(c.services, 0, j) && r.error == ServiceError(c.services[j], j)
    ensures r.Ok? ==> r.value.location == (if Truthy(c.location) then c.location.value else DefaultLocation)
    ensures r.Ok? ==> |r.value.services| == |c.services|
    ensures r.Ok? ==> forall j :: 0 <= j < |c.services| ==>
              ValidService(c.services[j]) && r.value.services[j] == Normalise(c.services[j])
  {
    match NormaliseFrom(c.services, 0)
    case Err(e) => Err(e)
    case Ok(services) =>
      var location := if Truthy(c.location) then c.location.value else DefaultLocation;
      Ok(Config(location, services))
  }

  /** `service.timezone || config.timezone || 'GMT-0'`: the first truthy of
      the two, never empty. */
  function SchedulerTimezone(serviceTz: Option<string>, configTz: Option<string>): (tz: string)
    ensures tz != ""
    ensures Truthy(serviceTz) ==> tz == serviceTz.value
    ensures !Truthy(serviceTz) && Truthy(configTz) ==> tz == configTz.value
    ensures tz in {serviceTz.GetOr(""), configTz.GetOr(""), DefaultTimezone}
  {
    if Truthy(serviceTz) then serviceTz.value
    else if Truthy(configTz) then configTz.value
    else DefaultTimezone
  }

  // ---------------------------------------------------------------------------
  // Downloading: the status rule
  // ---------------------------------------------------------------------------

  /** A reply of the HTTP client, its body already decompressed and parsed. */
  datatype Response = Response(status: int, headers: map<string, string>, body: seq<Record>)

  datatype FetchError = TransportError(message: string) | StatusError(message: string)

  /** A status in [200, 400) is accepted: the success and redirection
      classes. */
  function Accepted(status: int): (ok: bool)
    ensures ok <==> status / 100 == 2 || status / 100 == 3
  {
    200 <= status < 400
  }

  /** `'<status> >> <reason>'`, the reason taken from the status-text table
      (`undefined` for a status the table lacks). The status reads back from
      the message's leading digits, and the reason follows the separator. */
  function StatusMessage(status: int, reasons: map<int, string>): (m: string)
    ensures status >= 0 ==>
              var d := LeadingDigits(m);
              && ParseNat(d) == status
              && m[|d|..] == " >> " + (if status in reasons then reasons[status] else "undefined")
  {
    var reason := if status in reasons then reasons[status] else "undefined";
    StatusReadsBack(status, reason);
    IntToString(status) + (" >> " + reason)
  }

  lemma StatusReadsBack(status: int, reason: string)
    ensures status >= 0 ==>
              var m := IntToString(status) + (" >> " + reason);
              var d := LeadingDigits(m);
              ParseNat(d) == status && m[|d|..] == " >> " + reason
  {
    if status >= 0 {
      var m := IntToString(status) + (" >> " + reason);
      LeadingDigitsOf(IntToString(status), " >> " + reason);
      NatToStringParses(status);
      assert m[|IntToString(status)|..] == " >> " + reason;
    }
  }

  /** `downloadData`: a transport failure or a rejected status fails the
      download; an accepted reply is passed on unchanged. */
  function Download(fetched: Result<Response, string>, reasons: map<int, string>): (r: Result<Response, FetchError>)
    ensures r.Ok? <==> fetched.Ok? && Accepted(fetched.value.status)
    ensures r.Ok? ==> r.value == fetched.value
    ensures fetched.Err? ==> r == Err(TransportError(fetched.error))
    ensures (fetched.Ok? && !Accepted(fetched.value.status))
              ==> r == Err(StatusError(StatusMessage(fetched.value.status, reasons)))
  {
    match fetched
    case Err(msg) => Err(TransportError(msg))
    case Ok(resp) =>
      if Accepted(resp.status) then Ok(resp)
      else Err(StatusError(StatusMessage(resp.status, reasons)))
  }

  // ---------------------------------------------------------------------------
  // Refreshing: the committed snapshot
  // ---------------------------------------------------------------------------

  /** The object committed for a service: its configuration, the data, the
      reply headers and the indexes built over the data. */
  datatype Snapshot = Snapshot(
    config: Service,
    data: seq<Record>,
    headers: map<string, string>,
    indexes: Indexes.IndexTable)

  /** What went wrong, wrapped with the service name (`'<name> >> <stack>'`). */
  datatype Cause =
    | Fetch(fetchError: FetchError)
    | Commit(writeError: Storage.DiskError)
    | Read(readError: Storage.DiskError)
    | Lookup(findError: Indexes.FindError)

  datatype CacheError = CacheError(name: string, cause: Cause)

  /** The four notifications the cache emits. */
  datatype Event =
    | UpdateData(name: string, data: seq<Record>)
    | UpdateError(error: CacheError)
    | GetData(name: string, data: seq<Record>)
    | GetError(error: CacheError)

  /** A snapshot is a JavaScript object, hence always truthy. */
  predicate SnapshotTruthy(s: Snapshot)
  {
    true
  }

  /** The fields a service indexes; an absent list indexes none. */
  function IndexFields(svc: Service): seq<string>
  {
    svc.indexes.GetOr([])
  }

  /** Every position in the snapshot's indexes addresses its data. */
  predicate SnapshotSound(s: Snapshot)
  {
    Indexes.Sound(s.indexes, |s.data|)
  }

  /** Every snapshot the store holds, in either tier, is sound. */
  predicate SoundStore(st: Storage.Store<Snapshot>)
  {
    && (forall k :: k in st.memory ==> SnapshotSound(st.memory[k]))
    && (forall k :: k in st.disk ==> SnapshotSound(st.disk[k]))
  }

  /** The snapshot built from an accepted reply: the body is the data whatever
      `itemsPath` says, and the indexes are built over that body. */
  function MakeSnapshot(svc: Service, resp: Response): (snap: Snapshot)
    ensures snap.config == svc && snap.data == resp.body && snap.headers == resp.headers
    ensures snap.indexes == Indexes.BuildIndexes(resp.body, IndexFields(svc))
    ensures SnapshotSound(snap)
  {
    Indexes.BuildSound(resp.body, IndexFields(svc));
    Snapshot(svc, resp.body, resp.headers,
             Indexes.Build(Indexes.BuildInput(resp.body, svc.itemsPath, svc.indexes)))
  }

  /** The store after a refresh, how the tick's promise settles, and the events. */
  datatype Refreshed = Refreshed(store: Storage.Store<Snapshot>, outcome: Result<(), CacheError>, events: seq<Event>)

  /** One tick of `updateService`: download, index, and commit the whole
      snapshot under the service name in one `put`. Exactly one event is
      emitted: `updateData` on success, `updateError` on any failure. */
  function Refresh(st: Storage.Store<Snapshot>, svc: Service, fetched: Result<Response, string>,
                   reasons: map<int, string>, writeFault: Option<string>): (r: Refreshed)
    ensures |r.events| == 1
    ensures r.outcome.Ok? ==> fetched.Ok? && r.events[0] == UpdateData(svc.name, fetched.value.body)
    ensures r.outcome.Err? ==> r.events[0] == UpdateError(r.outcome.error) && r.outcome.error.name == svc.name
    ensures r.outcome.Ok? <==> Download(fetched, reasons).Ok? && writeFault.None?
    ensures Download(fetched, reasons).Err? ==>
              r.store == st && r.outcome == Err(CacheError(svc.name, Fetch(Download(fetched, reasons).error)))
    ensures Download(fetched, reasons).Ok? ==>
              r.store == Storage.Put(st, svc.name, MakeSnapshot(svc, fetched.value), writeFault).store
    ensures Download(fetched, reasons).Ok? && writeFault.Some? ==>
              r.outcome == Err(CacheError(svc.name, Commit(Storage.IoError(writeFault.value))))
  {
    match Download(fetched, reasons)
    case Err(e) =>
      var err := CacheError(svc.name, Fetch(e));
      Refreshed(st, Err(err), [UpdateError(err)])
    case Ok(resp) =>
      var step := Storage.Put(st, svc.name, MakeSnapshot(svc, resp), writeFault);
      match step.result
      case Ok(saved) => Refreshed(step.store, Ok(()), [UpdateData(saved.config.name, saved.data)])
      case Err(e) =>
        var err := CacheError(svc.name, Commit(e));
        Refreshed(step.store, Err(err), [UpdateError(err)])
  }

  // ---------------------------------------------------------------------------
  // Lookup
  // ---------------------------------------------------------------------------

  /** The argument of `get`. */
  datatype Query = Query(name: string, indexKey: Option<string>, indexValue: Option<Value>)

  /** The store after a lookup, how its promise settles, and the events. */
  datatype Answer = Answer(store: Storage.Store<Snapshot>, result: Result<seq<Record>, CacheError>, events: seq<Event>)

  /** `get`: reads the service's snapshot, then answers with the index lookup
      when an index key is given (truthy) and with the whole data otherwise.
      Failures come back wrapped with the service name. */
  function Get(st: Storage.Store<Snapshot>, q: Query, readFault: Option<string>): (r: Answer)
    requires SoundStore(st)
    ensures r.store == Storage.Get(st, q.name, SnapshotTruthy, readFault).store
    ensures SoundStore(r.store)
    ensures |r.events| == 1
    ensures r.result.Ok? ==> r.events[0] == GetData(q.name, r.result.value)
    ensures r.result.Err? ==> r.events[0] == GetError(r.result.error) && r.result.error.name == q.name
    ensures Storage.Get(st, q.name, SnapshotTruthy, readFault).result.Err? ==>
              r.result == Err(CacheError(q.name, Read(Storage.Get(st, q.name, SnapshotTruthy, readFault).result.error)))
    ensures Storage.Get(st, q.name, SnapshotTruthy, readFault).result.Ok? ==>
              var snap := Storage.Get(st, q.name, SnapshotTruthy, readFault).result.value;
              && SnapshotSound(snap)
              && (!Truthy(q.indexKey) ==> r.result == Ok(snap.data))
              && (Truthy(q.indexKey) ==>
                    match Indexes.Find(snap.indexes, q.indexKey, q.indexValue, snap.data)
                    case Ok(found) => r.result == Ok(found)
                    case Err(e) => r.result == Err(CacheError(q.name, Lookup(e))))
  {
    var step := Storage.Get(st, q.name, SnapshotTruthy, readFault);
    match step.result
    case Err(e) =>
      var err := CacheError(q.name, Read(e));
      Answer(step.store, Err(err), [GetError(err)])
    case Ok(snap) =>
      var found :=
        if Truthy(q.indexKey) then Indexes.Find(snap.indexes, q.indexKey, q.indexValue, snap.data)
        else Ok(snap.data);
      match found
      case Ok(data) => Answer(step.store, Ok(data), [GetData(q.name, data)])
      case Err(e) =>
        var err := CacheError(q.name, Lookup(e));
        Answer(step.store, Err(err), [GetError(err)])
  }

  // ---------------------------------------------------------------------------
  // Startup and the factory
  // ---------------------------------------------------------------------------

  /** The scheduler job created for a service. */
  datatype Job = Job(service: Service, cronTime: string, timeZone: string, runOnInit: bool)

  /** The store after the startup reads, and the jobs created. */
  datatype Startup = Startup(store: Storage.Store<Snapshot>, jobs: seq<Job>)

  /** `init`'s loop: for each service, look its snapshot up and schedule a job
      that runs at once exactly when the lookup failed. The normalised service
      and configuration carry no timezone, so both timezone lookups read
      `undefined`. One job per service, in order, on the service's cron
      expression; the reads leave the disk and the path alone and keep a
      sound store sound. */
  function StartJobs(st: Storage.Store<Snapshot>, services: seq<Service>, readFaults: seq<Option<string>>): (r: Startup)
    requires |readFaults| == |services|
    ensures |r.jobs| == |services|
    ensures forall i :: 0 <= i < |services| ==>
              && r.jobs[i].service == services[i]
              && r.jobs[i].cronTime == services[i].cronExpression
              && r.jobs[i].timeZone == DefaultTimezone
    ensures r.store.disk == st.disk && r.store.path == st.path
    ensures SoundStore(st) ==> SoundStore(r.store)
    decreases |services|
  {
    if |services| == 0 then Startup(st, [])
    else
      var svc := services[0];
      var step := Storage.Get(st, svc.name, SnapshotTruthy, readFaults[0]);
      var job := Job(svc, svc.cronExpression, SchedulerTimezone(None, None), step.result.Err?);
      var rest := StartJobs(step.store, services[1..], readFaults[1..]);
      assert forall i :: 1 <= i < |services| ==> services[i] == services[1..][i - 1];
      Startup(rest.store, [job] + rest.jobs)
  }

  /** A running cache: its configuration, its store and its jobs. */
  datatype Instance = Instance(config: Config, store: Storage.Store<Snapshot>, jobs: seq<Job>)

  /** `factory`: an existing instance is returned as is and the configuration
      ignored; otherwise the configuration is checked and normalised, the
      store opened at its location over the disk's current contents, and one
      job started per service. */
  function Factory(current: Option<Instance>, input: ConfigInput, existing: map<string, Snapshot>,
                   readFaults: seq<Option<string>>): (r: Result<Instance, ConfigError>)
    requires |readFaults| == |input.services|
    ensures current.Some? ==> r == Ok(current.value)
    ensures current.None? ==> (r.Ok? <==> BuildConfig(input).Ok?)
    ensures current.None? && r.Err? ==> r.error == BuildConfig(input).error
    ensures current.None? && r.Ok? ==>
              && r.value.config == BuildConfig(input).value
              && r.value.store.path == r.value.config.location + Storage.DatabaseName
              && r.value.store.disk == existing
              && |r.value.jobs| == |input.services|
    ensures current.None? && r.Ok? && (forall k :: k in existing ==> SnapshotSound(existing[k])) ==>
              SoundStore(r.value.store)
  {
    if current.Some? then Ok(current.value)
    else
      match BuildConfig(input)
      case Err(e) => Err(e)
      case Ok(cfg) =>
        var started := StartJobs(Storage.Init(cfg.location, existing), cfg.services, readFaults);
        Ok(Instance(cfg, started.store, started.jobs))
  }

  // ---------------------------------------------------------------------------
  // Properties
  // ---------------------------------------------------------------------------

  /** Startup over a coherent store: every job runs the service's cron
      expression in `GMT-0`; a job runs on init whenever no snapshot of its
      service is on disk, and, when its read did not fail, exactly then. */
  lemma {:induction false} StartJobsDecisions(st: Storage.Store<Snapshot>, services: seq<Service>,
                                              readFaults: seq<Option<string>>)
    requires |readFaults| == |services| && Storage.Coherent(st)
    ensures var r := StartJobs(st, services, readFaults);
            && Storage.Coherent(r.store)
            && (forall i :: 0 <= i < |services| ==>
                  && r.jobs[i].service == services[i]
                  && r.jobs[i].cronTime == services[i].cronExpression
                  && r.jobs[i].timeZone == DefaultTimezone
                  && (services[i].name !in st.disk ==> r.jobs[i].runOnInit)
                  && (readFaults[i].None? ==> (r.jobs[i].runOnInit <==> services[i].name !in st.disk)))
    decreases |services|
  {
    if |services| > 0 {
      var step := Storage.Get(st, services[0].name, SnapshotTruthy, readFaults[0]);
      Storage.GetPreservesCoherence(st, services[0].name, SnapshotTruthy, readFaults[0]);
      StartJobsDecisions(step.store, services[1..], readFaults[1..]);
      var r := StartJobs(st, services, readFaults);
      var rest := StartJobs(step.store, services[1..], readFaults[1..]);
      assert r.jobs == [r.jobs[0]] + rest.jobs;
      forall i | 1 <= i < |services|
        ensures services[i].name !in st.disk ==> r.jobs[i].runOnInit
        ensures readFaults[i].None? ==> (r.jobs[i].runOnInit <==> services[i].name !in st.disk)
      {
        assert r.jobs[i] == rest.jobs[i - 1];
        assert services[i] == services[1..][i - 1];
        assert readFaults[i] == readFaults[1..][i - 1];
      }
    }
  }

  /** Whatever timezones the caller configured, every scheduled job uses
      `GMT-0`: normalisation drops them before the scheduler reads them. */
  lemma ConfiguredTimezonesIgnored(input: ConfigInput, existing: map<string, Snapshot>,
                                   readFaults: seq<Option<string>>, i: nat)
    requires |readFaults| == |input.services| && i < |input.services|
    requires Factory(None, input, existing, readFaults).Ok?
    ensures Factory(None, input, existing, readFaults).value.jobs[i].timeZone == DefaultTimezone
  {
    var cfg := BuildConfig(input).value;
    StartJobsDecisions(Storage.Init(cfg.location, existing), cfg.services, readFaults);
  }

  /** On a first start with no disk failures, a service's job runs at once
      exactly when the disk holds no snapshot under its name. */
  lemma RunOnInitIffNoSnapshot(input: ConfigInput, existing: map<string, Snapshot>,
                               readFaults: seq<Option<string>>, i: nat)
    requires |readFaults| == |input.services| && i < |input.services|
    requires Factory(None, input, existing, readFaults).Ok? && readFaults[i].None?
    ensures Factory(None, input, existing, readFaults).value.jobs[i].runOnInit
            <==> input.services[i].name.value !in existing
  {
    var cfg := BuildConfig(input).value;
    StartJobsDecisions(Storage.Init(cfg.location, existing), cfg.services, readFaults);
  }

  /** The factory is a singleton: a second call returns the first instance
      and ignores its own configuration, disk and read outcomes. */
  lemma FactorySingleton(input: ConfigInput, existing: map<string, Snapshot>, readFaults: seq<Option<string>>,
                         input2: ConfigInput, existing2: map<string, Snapshot>, readFaults2: seq<Option<string>>)
    requires |readFaults| == |input.services| && |readFaults2| == |input2.services|
    requires Factory(None, input, existing, readFaults).Ok?
    ensures Factory(Some(Factory(None, input, existing, readFaults).value), input2, existing2, readFaults2)
            == Factory(None, input, existing, readFaults)
  {
  }

  /** The service entry of the users example. */
  function UsersEntry(): ServiceInput
  {
    ServiceInput(Some("users"), Some("* * * * * *"),
                 Some(HttpOptions(Some("http://localhost:8081"), map[])),
                 None, Some(["user", "active"]), Some("America/Buenos_Aires"))
  }

  /** With no location configured the store lives under `/tmp`, and the
      entry's timezone is not carried into the normalised service. */
  lemma DefaultLocationExample()
    ensures BuildConfig(ConfigInput(None, Some("UTC"), [UsersEntry()]))
            == Ok(Config("/tmp", [Service("users", "* * * * * *", None, Some(["user", "active"]),
                                          HttpOptions(Some("http://localhost:8081"), map[]))]))
  {
    var r := BuildConfig(ConfigInput(None, Some("UTC"), [UsersEntry()]));
    assert r.Ok?;
    assert r.value.location == "/tmp";
    assert |r.value.services| == 1;
    assert r.value.services[0] == Normalise(UsersEntry());
    assert r.value.services == [Normalise(UsersEntry())];
  }

  /** Whatever the location and timezone, `buildConfig` fails with the
      message of the first entry that fails an assertion. */
  lemma FirstInvalidDecides(c: ConfigInput, j: nat)
    requires FirstInvalidFrom(c.services, 0, j)
    ensures BuildConfig(c) == Err(ServiceError(c.services[j], j))
  {
    var r := BuildConfig(c);
    var j': nat :| FirstInvalidFrom(c.services, 0, j') && r.error == ServiceError(c.services[j'], j');
    assert j' == j;
  }

  /** The first bad entry decides the failure: here entry 1, which lacks a
      URL, although entry 2 lacks a name. */
  lemma FirstBadEntryReported()
    ensures var noUrl := UsersEntry().(httpOptions := Some(HttpOptions(None, map[])));
            var noName := UsersEntry().(name := Some(""));
            BuildConfig(ConfigInput(Some("/var"), None, [UsersEntry(), noUrl, noName]))
            == Err(AssertionError(1, Url))
  {
    var noUrl := UsersEntry().(httpOptions := Some(HttpOptions(None, map[])));
    var noName := UsersEntry().(name := Some(""));
    var c := ConfigInput(Some("/var"), None, [UsersEntry(), noUrl, noName]);
    assert FirstInvalidFrom(c.services, 0, 1);
    FirstInvalidDecides(c, 1);
  }

  /** The name is checked before anything else in an entry. */
  lemma NameCheckedFirst()
    ensures BuildConfig(ConfigInput(None, None, [ServiceInput(None, None, None, None, None, None)]))
            == Err(AssertionError(0, Name))
  {
    var c := ConfigInput(None, None, [ServiceInput(None, None, None, None, None, None)]);
    assert FirstInvalidFrom(c.services, 0, 0);
    FirstInvalidDecides(c, 0);
  }

  lemma ThreeDigits(n: nat)
    requires 100 <= n < 1000
    ensures IntToString(n) == [DigitChar(n / 100), DigitChar(n / 10 % 10), DigitChar(n % 10)]
  {
    assert NatToString(n / 100) == [DigitChar(n / 100)];
    assert NatToString(n / 10) == [DigitChar(n / 100), DigitChar(n / 10 % 10)];
  }

  /** The status rule at its boundaries. */
  lemma StatusBoundaries(fetched: Result<Response, string>, reasons: map<int, string>)
    ensures !Accepted(199) && Accepted(200) && Accepted(304) && Accepted(399) && !Accepted(400)
    ensures (fetched.Ok? && (fetched.value.status == 199 || fetched.value.status == 400))
              ==> Download(fetched, reasons).Err?
    ensures (fetched.Ok? && (fetched.value.status == 200 || fetched.value.status == 399))
              ==> Download(fetched, reasons) == Ok(fetched.value)
  {
  }

  /** A rejected status is reported as `'<status> >> <reason>'`. */
  lemma RejectedStatusText(reasons: map<int, string>)
    requires 500 in reasons
    ensures Download(Ok(Response(500, map[], [])), reasons) == Err(StatusError("500 >> " + reasons[500]))
  {
    ThreeDigits(500);
    var m := StatusMessage(500, reasons);
    assert m == "500 >> " + reasons[500];
    assert Download(Ok(Response(500, map[], [])), reasons) == Err(StatusError(m));
  }

  /** A status missing from the status-text table is reported with the
      reason `undefined`. */
  lemma UnknownStatusText(reasons: map<int, string>)
    requires 599 !in reasons
    ensures Download(Ok(Response(599, map[], [])), reasons) == Err(StatusError("599 >> undefined"))
  {
    ThreeDigits(599);
    var m := StatusMessage(599, reasons);
    assert m == "599" + " >> " + "undefined";
    assert m == "599 >> undefined";
    assert Download(Ok(Response(599, map[], [])), reasons) == Err(StatusError(m));
  }

  /** A refresh keeps every stored snapshot sound. */
  lemma RefreshKeepsStoreSound(st: Storage.Store<Snapshot>, svc: Service, fetched: Result<Response, string>,
                               reasons: map<int, string>, writeFault: Option<string>)
    requires SoundStore(st)
    ensures SoundStore(Refresh(st, svc, fetched, reasons, writeFault).store)
  {
  }

  /** A refresh whose commit succeeds, or that fails before committing, keeps
      memory and disk in agreement. */
  lemma RefreshKeepsCoherence(st: Storage.Store<Snapshot>, svc: Service, fetched: Result<Response, string>,
                              reasons: map<int, string>, writeFault: Option<string>)
    requires Storage.Coherent(st)
    requires Download(fetched, reasons).Err? || writeFault.None?
    ensures Storage.Coherent(Refresh(st, svc, fetched, reasons, writeFault).store)
  {
    if Download(fetched, reasons).Ok? {
      Storage.PutPreservesCoherence(st, svc.name, MakeSnapshot(svc, fetched.value));
    }
  }

  /** A failed download leaves every later lookup answering as before. */
  lemma FailedFetchKeepsPreviousSnapshot(st: Storage.Store<Snapshot>, svc: Service, fetched: Result<Response, string>,
                                         reasons: map<int, string>, writeFault: Option<string>,
                                         q: Query, readFault: Option<string>)
    requires SoundStore(st) && Download(fetched, reasons).Err?
    ensures Refresh(st, svc, fetched, reasons, writeFault).outcome.Err?
    ensures SoundStore(Refresh(st, svc, fetched, reasons, writeFault).store)
    ensures Get(Refresh(st, svc, fetched, reasons, writeFault).store, q, readFault) == Get(st, q, readFault)
  {
  }

  /** After an accepted download, whether or not the disk write succeeds, a
      lookup of the whole dataset returns the new data: memory was written
      and is not rolled back. */
  lemma RefreshedDataServed(st: Storage.Store<Snapshot>, svc: Service, fetched: Result<Response, string>,
                            reasons: map<int, string>, writeFault: Option<string>,
                            key: Option<string>, v: Option<Value>, readFault: Option<string>)
    requires SoundStore(st) && Download(fetched, reasons).Ok? && !Truthy(key)
    ensures SoundStore(Refresh(st, svc, fetched, reasons, writeFault).store)
    ensures Get(Refresh(st, svc, fetched, reasons, writeFault).store, Query(svc.name, key, v), readFault).result
            == Ok(fetched.value.body)
  {
  }

  /** End to end: after an accepted download of a non-empty dataset indexed on
      a field listed once, an index lookup returns exactly the records whose
      value has the key of the looked-up value, in data order. */
  lemma RefreshThenIndexLookup(st: Storage.Store<Snapshot>, svc: Service, fetched: Result<Response, string>,
                               reasons: map<int, string>, writeFault: Option<string>,
                               f: string, v: Option<Value>, readFault: Option<string>)
    requires SoundStore(st) && Download(fetched, reasons).Ok?
    requires |fetched.value.body| > 0 && f != "" && Indexes.Count(IndexFields(svc), f) == 1
    ensures SoundStore(Refresh(st, svc, fetched, reasons, writeFault).store)
    ensures Get(Refresh(st, svc, fetched, reasons, writeFault).store, Query(svc.name, Some(f), v), readFault).result
            == Ok(Indexes.Filter(fetched.value.body, f, ToKey(v)))
  {
    var resp := fetched.value;
    var snap := MakeSnapshot(svc, resp);
    var s1 := Refresh(st, svc, fetched, reasons, writeFault).store;
    assert s1 == Storage.Put(st, svc.name, snap, writeFault).store;
    Indexes.FindBuildRoundTrip(resp.body, IndexFields(svc), f, v);
    StoredLookup(s1, svc.name, snap, f, v, readFault, Indexes.Filter(resp.body, f, ToKey(v)));
  }

  /** An index lookup of a snapshot held in memory answers with what `find`
      returns on it. */
  lemma StoredLookup(st: Storage.Store<Snapshot>, name: string, snap: Snapshot, f: string, v: Option<Value>,
                     readFault: Option<string>, found: seq<Record>)
    requires SoundStore(st) && name in st.memory && st.memory[name] == snap && f != ""
    requires Indexes.Find(snap.indexes, Some(f), v, snap.data) == Ok(found)
    ensures Get(st, Query(name, Some(f), v), readFault).result == Ok(found)
  {
  }

  /** Looking up a service with no snapshot in either tier rejects with the
      disk's not-found error, wrapped with the service name. */
  lemma UnknownServiceRejected(st: Storage.Store<Snapshot>, q: Query)
    requires SoundStore(st) && q.name !in st.memory && q.name !in st.disk
    ensures Get(st, q, None).result == Err(CacheError(q.name, Read(Storage.NotFound(q.name))))
    ensures Get(st, q, None).events == [GetError(CacheError(q.name, Read(Storage.NotFound(q.name))))]
  {
  }

  /** Repeating a successful lookup against the unchanged store returns the
      same records in the same order, served from memory whatever the disk
      would answer. */
  lemma RepeatedLookupAgrees(st: Storage.Store<Snapshot>, q: Query, f1: Option<string>, f2: Option<string>)
    requires SoundStore(st) && Get(st, q, f1).result.Ok?
    ensures Get(Get(st, q, f1).store, q, f2).result == Get(st, q, f1).result
  {
  }

  /** Two services that differ only in `itemsPath` commit the same data and
      indexes: the path is never applied to the body. */
  lemma ItemsPathIgnored(svc: Service, p: Option<string>, resp: Response)
    ensures MakeSnapshot(svc, resp).data == MakeSnapshot(svc.(itemsPath := p), resp).data == resp.body
    ensures MakeSnapshot(svc, resp).indexes == MakeSnapshot(svc.(itemsPath := p), resp).indexes
  {
  }
}

=== FILE: common.dfy ===
/** Small shared vocabulary: optional values, success/failure results, the
    JavaScript truthiness test the cache applies to optional strings, and the
    decimal rendering JavaScript uses when it turns an integer into text. */
module Common {

  /** A value that may be absent; `None` stands for JavaScript's `undefined`. */
  datatype Option<+T> = None | Some(value: T) {

    /** The wrapped value, or `default` when absent (JavaScript's `x || default`
        for values that are always truthy when present). */
    function GetOr(default: T): (r: T)
      ensures Some? ==> r == value
      ensures None? ==> r == default
    {
      match this
      case Some(v) => v
      case None => default
    }
  }

  /** The outcome of an operation that may fail, as a resolved or rejected promise. */
  datatype Result<+T, +E> = Ok(value: T) | Err(error: E)

  /** JavaScript truthiness of an optional string: `undefined` and `""` are falsy. */
  predicate Truthy(s: Option<string>)
  {
    s.Some? && s.value != ""
  }

  predicate IsDigit(c: char)
  {
    '0' <= c <= '9'
  }

  function DigitChar(d: nat): (c: char)
    requires d < 10
    ensures IsDigit(c)
  {
    ('0' as int + d) as char
  }

  /** The value of a decimal digit; it undoes `DigitChar`. */
  function DigitValue(c: char): (d: nat)
    requires IsDigit(c)
    ensures d < 10 && DigitChar(d) == c
  {
    c as int - '0' as int
  }

  /** Decimal rendering of a natural number, most significant digit first. */
  function NatToString(n: nat): (s: string)
    ensures |s| > 0
    ensures forall i :: 0 <= i < |s| ==> IsDigit(s[i])
    ensures n < 10 <==> |s| == 1
  {
    if n < 10 then [DigitChar(n)] else NatToString(n / 10) + [DigitChar(n % 10)]
  }

  /** The number a non-empty run of decimal digits denotes, most significant
      digit first. */
  function ParseNat(s: string): nat
    requires forall i :: 0 <= i < |s| ==> IsDigit(s[i])
  {
    if |s| == 0 then 0 else 10 * ParseNat(s[..|s| - 1]) + DigitValue(s[|s| - 1])
  }

  /** Reading back the decimal rendering of a number gives the number. */
  lemma {:induction false} NatToStringParses(n: nat)
    ensures ParseNat(NatToString(n)) == n
  {
    var s := NatToString(n);
    if n >= 10 {
      NatToStringParses(n / 10);
      assert s[..|s| - 1] == NatToString(n / 10);
    }
  }

  /** The longest prefix of `s` made of decimal digits. */
  function LeadingDigits(s: string): (d: string)
    ensures |d| <= |s| && d == s[..|d|]
    ensures forall i :: 0 <= i < |d| ==> IsDigit(d[i])
    ensures |d| < |s| ==> !IsDigit(s[|d|])
  {
    if |s| == 0 || !IsDigit(s[0]) then "" else [s[0]] + LeadingDigits(s[1..])
  }

  /** A run of digits followed by a non-digit (or nothing) is exactly what
      `LeadingDigits` takes. */
  lemma {:induction false} LeadingDigitsOf(d: string, rest: string)
    requires forall i :: 0 <= i < |d| ==> IsDigit(d[i])
    requires |rest| == 0 || !IsDigit(rest[0])
    ensures LeadingDigits(d + rest) == d
  {
    if |d| > 0 {
      LeadingDigitsOf(d[1..], rest);
      assert (d + rest)[1..] == d[1..] + rest;
    } else {
      assert d + rest == rest;
    }
  }

  /** JavaScript's `String(n)` for an integral number. */
  function IntToString(n: int): (s: string)
    ensures |s| > 0
    ensures n < 0 <==> s[0] == '-'
  {
    if n < 0 then "-" + NatToString(-n) else NatToString(n)
  }
}

=== FILE: indexes.dfy ===
/** The secondary-index engine of lib/indexes.js.

    `Build` turns a dataset (a sequence of records) and a list of field names
    into a table: field name, then the text key of a field value, then the
    positions of the records holding that value (a "bucket"). `Find` resolves
    a field/value pair back to the records, in bucket order.

    Next to the code's own single-pass construction, `Positions` and `Select`
    give an independent per-field reference definition, and the lemmas below
    connect the two. */
module Indexes {
  import opened Common
  import opened Values

  /** Text key of a field value to the positions of the records holding it. */
  type FieldIndex = map<string, seq<nat>>

  /** Field name to that field's buckets. */
  type IndexTable = map<string, FieldIndex>

  /** The argument object of `build`: the data, the unused `itemsPath`, and the
      optional list of fields to index. */
  datatype BuildInput = BuildInput(data: seq<Record>, itemsPath: Option<string>, indexes: Option<seq<string>>)

  /** `find` dereferences an index that does not exist: a TypeError. */
  datatype FindError = UnknownIndex(field: string)

  /** The bucket for field `f` and key `k`, empty when either level is missing. */
  function Bucket(t: IndexTable, f: string, k: string): seq<nat>
  {
    if f in t && k in t[f] then t[f][k] else []
  }

  /** Buckets are created only to receive a position, so none is empty. */
  predicate NonEmptyBuckets(t: IndexTable)
  {
    forall f, k :: f in t && k in t[f] ==> t[f][k] != []
  }

  /** Every position in every bucket indexes a dataset of `n` records. */
  predicate Sound(t: IndexTable, n: nat)
  {
    forall f, k, j :: f in t && k in t[f] && 0 <= j < |t[f][k]| ==> t[f][k][j] < n
  }

  /** The field names as a set. */
  function FieldSet(fields: seq<string>): set<string>
  {
    set f | f in fields
  }

  /** How many times `f` is listed among the indexed fields. */
  function Count(fields: seq<string>, f: string): nat
  {
    multiset(fields)[f]
  }

  function Repeat(pos: nat, c: nat): (s: seq<nat>)
    ensures |s| == c
    ensures forall j :: 0 <= j < c ==> s[j] == pos
  {
    seq(c, _ => pos)
  }

  predicate StrictlyIncreasing(s: seq<nat>)
  {
    forall a, b :: 0 <= a < b < |s| ==> s[a] < s[b]
  }

  predicate NonDecreasing(s: seq<nat>)
  {
    forall a, b :: 0 <= a < b < |s| ==> s[a] <= s[b]
  }

  // ---------------------------------------------------------------------------
  // The construction as the code performs it
  // ---------------------------------------------------------------------------

  /** One step of the inner loop: create the field's map and the bucket when
      missing, then append the position. */
  function Push(t: IndexTable, f: string, k: string, pos: nat): (t': IndexTable)
    ensures t'.Keys == t.Keys + {f}
    ensures Bucket(t', f, k) == Bucket(t, f, k) + [pos]
    ensures forall g, j :: g != f || j != k ==> Bucket(t', g, j) == Bucket(t, g, j)
    ensures NonEmptyBuckets(t) ==> NonEmptyBuckets(t')
  {
    var fi := if f in t then t[f] else map[];
    var b := if k in fi then fi[k] else [];
    t[f := fi[k := b + [pos]]]
  }

  /** The inner loop: the record at `pos` is pushed once per listed field, in
      the order the fields are listed. */
  function AddRecord(t: IndexTable, rec: Record, pos: nat, fields: seq<string>): IndexTable
    decreases |fields|
  {
    if |fields| == 0 then t
    else
      AddRecord(Push(t, fields[0], KeyOf(rec, fields[0]), pos), rec, pos, fields[1..])
  }

  /** The outer loop over the first `n` records, in data order. */
  function BuildPrefix(data: seq<Record>, fields: seq<string>, n: nat): IndexTable
    requires n <= |data|
  {
    if n == 0 then map[]
    else AddRecord(BuildPrefix(data, fields, n - 1), data[n - 1], n - 1, fields)
  }

  /** The whole pass. Field maps are created inside the loop over the
      records, so an empty dataset yields an empty table and otherwise the
      table's fields are exactly the listed ones; no bucket is empty. */
  function BuildIndexes(data: seq<Record>, fields: seq<string>): (t: IndexTable)
    ensures |data| == 0 ==> t == map[]
    ensures |data| > 0 ==> t.Keys == FieldSet(fields)
    ensures NonEmptyBuckets(t)
  {
    BuildPrefixBuckets(data, fields, |data|);
    BuildPrefix(data, fields, |data|)
  }

  /** `build`: reads only the data and the field list. Every bucket equals
      the per-field reference below (each matching position once per listing
      of the field), every position addresses the data, and an absent field
      list indexes nothing. */
  function Build(input: BuildInput): (t: IndexTable)
    ensures forall f, k :: Bucket(t, f, k)
              == Positions(input.data, f, k, Count(input.indexes.GetOr([]), f), |input.data|)
    ensures Sound(t, |input.data|)
    ensures input.indexes.None? ==> t == map[]
  {
    var fields := input.indexes.GetOr([]);
    BuildPrefixBuckets(input.data, fields, |input.data|);
    BuildSound(input.data, fields);
    var t := BuildIndexes(input.data, fields);
    assert input.indexes.None? ==> t.Keys == {};
    t
  }

  // ---------------------------------------------------------------------------
  // Reference definitions, one field at a time
  // ---------------------------------------------------------------------------

  /** What the record at `pos` adds to the bucket of field `f` and key `k`:
      its position, `copies` times, when its value for `f` has key `k`. */
  function Contribution(rec: Record, f: string, k: string, pos: nat, copies: nat): seq<nat>
  {
    if KeyOf(rec, f) == k then Repeat(pos, copies) else []
  }

  /** The positions below `n` whose value for `f` has key `k`, ascending, each
      repeated `copies` times. */
  function Positions(data: seq<Record>, f: string, k: string, copies: nat, n: nat): seq<nat>
    requires n <= |data|
  {
    if n == 0 then []
    else Positions(data, f, k, copies, n - 1)
         + Contribution(data[n - 1], f, k, n - 1, copies)
  }

  /** The records below `n` whose value for `f` has key `k`, in data order. */
  function Select(data: seq<Record>, f: string, k: string, n: nat): seq<Record>
    requires n <= |data|
  {
    if n == 0 then []
    else Select(data, f, k, n - 1) + (if KeyOf(data[n - 1], f) == k then [data[n - 1]] else [])
  }

  /** The records whose value for `f` has key `k`, in data order. */
  function Filter(data: seq<Record>, f: string, k: string): seq<Record>
  {
    Select(data, f, k, |data|)
  }

  // ---------------------------------------------------------------------------
  // Lookup
  // ---------------------------------------------------------------------------

  /** The records at the given positions, in the given order. */
  function Project(data: seq<Record>, ps: seq<nat>): (rs: seq<Record>)
    requires forall j :: 0 <= j < |ps| ==> ps[j] < |data|
    ensures |rs| == |ps|
    ensures forall j :: 0 <= j < |ps| ==> rs[j] == data[ps[j]]
  {
    seq(|ps|, j requires 0 <= j < |ps| => data[ps[j]])
  }

  /** `find`: with a falsy index key the data comes back unchanged; otherwise
      the key must name an index of the table, and the bucket of the value's
      key (possibly missing, hence empty) is projected onto the data. */
  function Find(t: IndexTable, indexKey: Option<string>, indexValue: Option<Value>,
                data: seq<Record>): (r: Result<seq<Record>, FindError>)
    requires Sound(t, |data|)
    ensures !Truthy(indexKey) ==> r == Ok(data)
    ensures Truthy(indexKey) ==> (r.Err? <==> indexKey.value !in t)
    ensures r.Err? ==> r.error == UnknownIndex(indexKey.value)
    ensures (Truthy(indexKey) && indexKey.value in t && ToKey(indexValue) !in t[indexKey.value])
              ==> r == Ok([])
    ensures Truthy(indexKey) && r.Ok? ==>
              var b := Bucket(t, indexKey.value, ToKey(indexValue));
              |r.value| == |b| && forall j :: 0 <= j < |b| ==> b[j] < |data| && r.value[j] == data[b[j]]
  {
    if Truthy(indexKey) then
      var f := indexKey.value;
      if f !in t then Err(UnknownIndex(f))
      else
        var b := Bucket(t, f, ToKey(indexValue));
        Ok(Project(data, b))
    else Ok(data)
  }

  // ---------------------------------------------------------------------------
  // The construction agrees with the reference
  // ---------------------------------------------------------------------------

  lemma RepeatSucc(pos: nat, c: nat)
    ensures Repeat(pos, c + 1) == [pos] + Repeat(pos, c)
  {
  }

  lemma CountCons(fields: seq<string>, g: string)
    requires |fields| > 0
    ensures Count(fields, g) == Count(fields[1..], g) + (if g == fields[0] then 1 else 0)
  {
    assert fields == [fields[0]] + fields[1..];
    assert multiset(fields) == multiset([fields[0]]) + multiset(fields[1..]);
  }

  /** Appending one pushed position and then `c1` further copies of it is
      appending `c1 + 1` copies. */
  lemma AppendCopies(bT: seq<nat>, b1: seq<nat>, bR: seq<nat>, pos: nat, c1: nat, c: nat,
                     pushed: bool, hit: bool, listedFirst: bool)
    requires b1 == bT + (if pushed then [pos] else [])
    requires bR == b1 + (if hit then Repeat(pos, c1) else [])
    requires c == c1 + (if listedFirst then 1 else 0)
    requires pushed <==> hit && listedFirst
    ensures bR == bT + (if hit then Repeat(pos, c) else [])
  {
    if pushed {
      RepeatSucc(pos, c1);
      assert bR == (bT + [pos]) + Repeat(pos, c1);
    }
  }

  lemma PushBucket(t: IndexTable, f: string, k: string, pos: nat, g: string, j: string)
    ensures Bucket(Push(t, f, k, pos), g, j) == Bucket(t, g, j) + (if g == f && j == k then [pos] else [])
  {
  }

  /** One listing of `fields[0]` followed by the rest of the list: how a bucket
      of the final table relates to the bucket before the record was processed. */
  lemma AddRecordBucketStep(t: IndexTable, rec: Record, pos: nat, fields: seq<string>, g: string, j: string)
    requires |fields| > 0
    requires Bucket(AddRecord(Push(t, fields[0], KeyOf(rec, fields[0]), pos), rec, pos, fields[1..]), g, j)
             == Bucket(Push(t, fields[0], KeyOf(rec, fields[0]), pos), g, j)
                + Contribution(rec, g, j, pos, Count(fields[1..], g))
    ensures Bucket(AddRecord(t, rec, pos, fields), g, j)
            == Bucket(t, g, j) + Contribution(rec, g, j, pos, Count(fields, g))
  {
    var f0 := fields[0];
    var k0 := KeyOf(rec, f0);
    var t1 := Push(t, f0, k0, pos);
    PushBucket(t, f0, k0, pos, g, j);
    CountCons(fields, g);
    AppendCopies(Bucket(t, g, j), Bucket(t1, g, j), Bucket(AddRecord(t1, rec, pos, fields[1..]), g, j),
                 pos, Count(fields[1..], g), Count(fields, g), g == f0 && j == k0, KeyOf(rec, g) == j, g == f0);
  }

  lemma FieldSetCons(fields: seq<string>)
    requires |fields| > 0
    ensures FieldSet(fields) == {fields[0]} + FieldSet(fields[1..])
  {
    assert fields == [fields[0]] + fields[1..];
  }

  /** Processing one record appends its position, once per listing of each
      field, to exactly the bucket of that field's value; nothing else moves. */
  lemma {:induction false} AddRecordBuckets(t: IndexTable, rec: Record, pos: nat, fields: seq<string>)
    ensures AddRecord(t, rec, pos, fields).Keys == t.Keys + FieldSet(fields)
    ensures forall g, j :: Bucket(AddRecord(t, rec, pos, fields), g, j)
              == Bucket(t, g, j) + Contribution(rec, g, j, pos, Count(fields, g))
    ensures NonEmptyBuckets(t) ==> NonEmptyBuckets(AddRecord(t, rec, pos, fields))
    decreases |fields|
  {
    if |fields| > 0 {
      var t1 := Push(t, fields[0], KeyOf(rec, fields[0]), pos);
      AddRecordBuckets(t1, rec, pos, fields[1..]);
      FieldSetCons(fields);
      forall g, j
        ensures Bucket(AddRecord(t, rec, pos, fields), g, j)
          == Bucket(t, g, j) + Contribution(rec, g, j, pos, Count(fields, g))
      {
        AddRecordBucketStep(t, rec, pos, fields, g, j);
      }
    }
  }

  /** After the first `n` records the table holds one map per listed field
      (none at all before any record), every bucket is non-empty, and every
      bucket equals the per-field reference. */
  lemma BuildPrefixBuckets(data: seq<Record>, fields: seq<string>, n: nat)
    requires n <= |data|
    ensures n == 0 ==> BuildPrefix(data, fields, n) == map[]
    ensures n > 0 ==> BuildPrefix(data, fields, n).Keys == FieldSet(fields)
    ensures forall f, k :: Bucket(BuildPrefix(data, fields, n), f, k)
              == Positions(data, f, k, Count(fields, f), n)
    ensures NonEmptyBuckets(BuildPrefix(data, fields, n))
  {
    BuildPrefixShape(data, fields, n);
    BuildPrefixPositions(data, fields, n);
  }

  /** The table's fields and non-empty buckets after the first `n` records. */
  lemma {:induction false} BuildPrefixShape(data: seq<Record>, fields: seq<string>, n: nat)
    requires n <= |data|
    ensures n == 0 ==> BuildPrefix(data, fields, n) == map[]
    ensures n > 0 ==> BuildPrefix(data, fields, n).Keys == FieldSet(fields)
    ensures NonEmptyBuckets(BuildPrefix(data, fields, n))
  {
    if n > 0 {
      var prev := BuildPrefix(data, fields, n - 1);
      var next := BuildPrefix(data, fields, n);
      assert next == AddRecord(prev, data[n - 1], n - 1, fields);
      BuildPrefixShape(data, fields, n - 1);
      AddRecordBuckets(prev, data[n - 1], n - 1, fields);
      KeysStep(prev.Keys, next.Keys, FieldSet(fields), n == 1);
    }
  }

  /** The fields after one more record: the listed ones, whether or not the
      table had any before. */
  lemma KeysStep(before: set<string>, after: set<string>, listed: set<string>, first: bool)
    requires after == before + listed
    requires first ==> before == {}
    requires !first ==> before == listed
    ensures after == listed
  {
  }

  /** Every bucket after the first `n` records equals the per-field reference. */
  lemma BuildPrefixPositions(data: seq<Record>, fields: seq<string>, n: nat)
    requires n <= |data|
    ensures forall f, k :: Bucket(BuildPrefix(data, fields, n), f, k)
              == Positions(data, f, k, Count(fields, f), n)
  {
    forall f, k
      ensures Bucket(BuildPrefix(data, fields, n), f, k) == Positions(data, f, k, Count(fields, f), n)
    {
      PrefixBucket(data, fields, n, f, k);
    }
  }

  /** The bucket of field `f` and key `k` after the first `n` records is the
      per-field reference. */
  predicate PrefixAgrees(data: seq<Record>, fields: seq<string>, n: nat, f: string, k: string)
    requires n <= |data|
  {
    Bucket(BuildPrefix(data, fields, n), f, k) == Positions(data, f, k, Count(fields, f), n)
  }

  /** `BuildPrefixPositions` at one field and key, by induction on `n`. */
  lemma {:induction false} PrefixBucket(data: seq<Record>, fields: seq<string>, n: nat, f: string, k: string)
    requires n <= |data|
    ensures PrefixAgrees(data, fields, n, f, k)
  {
    if n > 0 {
      PrefixBucket(data, fields, n - 1, f, k);
      PrefixBucketStep(data, fields, n, f, k);
    }
  }

  /** One record of the outer loop keeps the bucket equal to the reference. */
  lemma PrefixBucketStep(data: seq<Record>, fields: seq<string>, n: nat, f: string, k: string)
    requires 0 < n <= |data|
    requires PrefixAgrees(data, fields, n - 1, f, k)
    ensures PrefixAgrees(data, fields, n, f, k)
  {
    var prev := BuildPrefix(data, fields, n - 1);
    RecordBucket(prev, data[n - 1], n - 1, fields, f, k);
    RecordStep(data, fields, n, f, k, prev, AddRecord(prev, data[n - 1], n - 1, fields));
  }

  /** One record of the outer loop extends a bucket as the reference does;
      stated over plain tables so that neither loop is unfolded here. */
  lemma RecordStep(data: seq<Record>, fields: seq<string>, n: nat, f: string, k: string, prev: IndexTable, next: IndexTable)
    requires 0 < n <= |data|
    requires Bucket(prev, f, k) == Positions(data, f, k, Count(fields, f), n - 1)
    requires Bucket(next, f, k) == Bucket(prev, f, k) + Contribution(data[n - 1], f, k, n - 1, Count(fields, f))
    ensures Bucket(next, f, k) == Positions(data, f, k, Count(fields, f), n)
  {
  }

  /** `AddRecordBuckets` at one field and key. */
  lemma RecordBucket(t: IndexTable, rec: Record, pos: nat, fields: seq<string>, g: string, j: string)
    ensures Bucket(AddRecord(t, rec, pos, fields), g, j)
            == Bucket(t, g, j) + Contribution(rec, g, j, pos, Count(fields, g))
  {
    AddRecordBuckets(t, rec, pos, fields);
  }

  /** A position is in a reference bucket exactly when it is below `n`, its
      record's key for `f` is `k`, and the field is listed at least once. */
  lemma {:induction false} PositionsMembership(data: seq<Record>, f: string, k: string, copies: nat, n: nat)
    requires n <= |data|
    ensures forall i :: i in Positions(data, f, k, copies, n)
              <==> 0 <= i < n && KeyOf(data[i], f) == k && copies > 0
  {
    if n > 0 {
      PositionsMembership(data, f, k, copies, n - 1);
      var p := Positions(data, f, k, copies, n - 1);
      var tail := Contribution(data[n - 1], f, k, n - 1, copies);
      assert Positions(data, f, k, copies, n) == p + tail;
      forall i
        ensures i in p + tail <==> 0 <= i < n && KeyOf(data[i], f) == k && copies > 0
      {
        assert i in tail <==> i == n - 1 && KeyOf(data[n - 1], f) == k && copies > 0 by {
          if i == n - 1 && KeyOf(data[n - 1], f) == k && copies > 0 {
            assert tail[0] == i;
          }
        }
      }
    }
  }

  /** A reference bucket with single copies lists its positions in strictly
      increasing order. */
  lemma {:induction false} PositionsAscending(data: seq<Record>, f: string, k: string, n: nat)
    requires n <= |data|
    ensures StrictlyIncreasing(Positions(data, f, k, 1, n))
  {
    if n > 0 {
      PositionsAscending(data, f, k, n - 1);
      PositionsBelow(data, f, k, 1, n - 1);
      ExtendIncreasing(Positions(data, f, k, 1, n - 1), Contribution(data[n - 1], f, k, n - 1, 1), n - 1);
    }
  }

  /** A reference bucket lists its positions in non-decreasing order for any
      number of copies: each position's copies sit together, in data order. */
  lemma {:induction false} PositionsNonDecreasing(data: seq<Record>, f: string, k: string, copies: nat, n: nat)
    requires n <= |data|
    ensures NonDecreasing(Positions(data, f, k, copies, n))
  {
    if n > 0 {
      PositionsNonDecreasing(data, f, k, copies, n - 1);
      PositionsBelow(data, f, k, copies, n - 1);
      ExtendNonDecreasing(Positions(data, f, k, copies, n - 1), Contribution(data[n - 1], f, k, n - 1, copies), n - 1);
    }
  }

  /** Every position in a reference bucket is below `n`. */
  lemma PositionsBelow(data: seq<Record>, f: string, k: string, copies: nat, n: nat)
    requires n <= |data|
    ensures forall a :: 0 <= a < |Positions(data, f, k, copies, n)| ==> Positions(data, f, k, copies, n)[a] < n
  {
    PositionsMembership(data, f, k, copies, n);
    var p := Positions(data, f, k, copies, n);
    forall a | 0 <= a < |p| ensures p[a] < n {
      assert p[a] in p;
    }
  }

  /** Appending copies of a position above everything in a sorted sequence
      keeps it sorted. */
  lemma ExtendNonDecreasing(p: seq<nat>, tail: seq<nat>, pos: nat)
    requires NonDecreasing(p)
    requires forall a :: 0 <= a < |p| ==> p[a] < pos
    requires forall b :: 0 <= b < |tail| ==> tail[b] == pos
    ensures NonDecreasing(p + tail)
  {
  }

  /** Appending at most one position above everything in a strictly increasing
      sequence keeps it strictly increasing. */
  lemma ExtendIncreasing(p: seq<nat>, tail: seq<nat>, pos: nat)
    requires StrictlyIncreasing(p)
    requires forall a :: 0 <= a < |p| ==> p[a] < pos
    requires |tail| <= 1 && forall b :: 0 <= b < |tail| ==> tail[b] == pos
    ensures StrictlyIncreasing(p + tail)
  {
  }

  lemma {:induction false} RepeatMultiplicity(pos: nat, c: nat, i: nat)
    ensures multiset(Repeat(pos, c))[i] == if i == pos then c else 0
  {
    if c > 0 {
      RepeatMultiplicity(pos, c - 1, i);
      RepeatSucc(pos, c - 1);
      assert multiset(Repeat(pos, c)) == multiset([pos]) + multiset(Repeat(pos, c - 1));
    } else {
      assert Repeat(pos, c) == [];
    }
  }

  /** A matching position occurs in a reference bucket exactly `copies` times,
      any other position not at all. */
  lemma {:induction false} PositionsMultiplicity(data: seq<Record>, f: string, k: string, copies: nat, n: nat, i: nat)
    requires n <= |data|
    ensures multiset(Positions(data, f, k, copies, n))[i]
            == if i < n && KeyOf(data[i], f) == k then copies else 0
  {
    if n > 0 {
      PositionsMultiplicity(data, f, k, copies, n - 1, i);
      PositionsMultiplicityStep(data, f, k, copies, n, i);
    }
  }

  /** One record of `Positions` keeps the multiplicity of `i` as the reference counts it. */
  lemma PositionsMultiplicityStep(data: seq<Record>, f: string, k: string, copies: nat, n: nat, i: nat)
    requires 0 < n <= |data|
    requires multiset(Positions(data, f, k, copies, n - 1))[i]
             == if i < n - 1 && KeyOf(data[i], f) == k then copies else 0
    ensures multiset(Positions(data, f, k, copies, n))[i]
            == if i < n && KeyOf(data[i], f) == k then copies else 0
  {
    ContributionMultiplicity(data[n - 1], f, k, n - 1, copies, i);
    MultiplicityStep(Positions(data, f, k, copies, n - 1), Contribution(data[n - 1], f, k, n - 1, copies),
                     i, n, copies, i < n - 1 && KeyOf(data[i], f) == k, KeyOf(data[n - 1], f) == k,
                     i < n && KeyOf(data[i], f) == k);
  }

  lemma ContributionMultiplicity(rec: Record, f: string, k: string, pos: nat, copies: nat, i: nat)
    ensures multiset(Contribution(rec, f, k, pos, copies))[i]
            == if i == pos && KeyOf(rec, f) == k then copies else 0
  {
    RepeatMultiplicity(pos, copies, i);
  }

  /** The multiplicity bookkeeping of one step of `Positions`, over plain
      sequences: `before` says whether position `i` is a match below `n - 1`,
      `last` whether the record at `n - 1` is one, and `hit` whether `i` is a
      match below `n`. */
  lemma MultiplicityStep(p: seq<nat>, tail: seq<nat>, i: nat, n: nat, copies: nat, before: bool, last: bool, hit: bool)
    requires multiset(p)[i] == if before then copies else 0
    requires multiset(tail)[i] == if i == n - 1 && last then copies else 0
    requires hit <==> before || (i == n - 1 && last)
    requires !(before && i == n - 1)
    ensures multiset(p + tail)[i] == if hit then copies else 0
  {
    assert multiset(p + tail) == multiset(p) + multiset(tail);
  }

  /** Projecting a single-copy reference bucket yields the reference selection. */
  lemma {:induction false} ProjectPositions(data: seq<Record>, f: string, k: string, n: nat)
    requires n <= |data|
    requires forall j :: 0 <= j < |Positions(data, f, k, 1, n)| ==> Positions(data, f, k, 1, n)[j] < |data|
    ensures Project(data, Positions(data, f, k, 1, n)) == Select(data, f, k, n)
  {
    if n > 0 {
      PositionsBelow(data, f, k, 1, n - 1);
      ProjectPositions(data, f, k, n - 1);
      ProjectPositionsStep(data, f, k, n - 1, n);
    }
  }

  /** One record of `Positions` and `Select`, from `m` to `n = m + 1`
      records: projection keeps them in step. */
  lemma ProjectPositionsStep(data: seq<Record>, f: string, k: string, m: nat, n: nat)
    requires n == m + 1 && n <= |data|
    requires forall j :: 0 <= j < |Positions(data, f, k, 1, n)| ==> Positions(data, f, k, 1, n)[j] < |data|
    requires forall j :: 0 <= j < |Positions(data, f, k, 1, m)| ==> Positions(data, f, k, 1, m)[j] < |data|
    requires Project(data, Positions(data, f, k, 1, m)) == Select(data, f, k, m)
    ensures Project(data, Positions(data, f, k, 1, n)) == Select(data, f, k, n)
  {
    var p := Positions(data, f, k, 1, m);
    var c := Contribution(data[m], f, k, m, 1);
    assert Positions(data, f, k, 1, n) == p + c;
    ProjectAppend(data, p, c);
    assert Project(data, c) == if KeyOf(data[m], f) == k then [data[m]] else [];
  }

  /** Projection distributes over concatenation. */
  lemma ProjectAppend(data: seq<Record>, p: seq<nat>, c: seq<nat>)
    requires forall j :: 0 <= j < |p + c| ==> (p + c)[j] < |data|
    ensures forall j :: 0 <= j < |p| ==> p[j] < |data|
    ensures forall j :: 0 <= j < |c| ==> c[j] < |data|
    ensures Project(data, p + c) == Project(data, p) + Project(data, c)
  {
    assert forall j :: 0 <= j < |p| ==> p[j] == (p + c)[j];
    assert forall j :: 0 <= j < |c| ==> c[j] == (p + c)[|p| + j];
  }

  // ---------------------------------------------------------------------------
  // Properties of build and find
  // ---------------------------------------------------------------------------

  /** Every position in every bucket indexes the data (index soundness). */
  lemma BuildSound(data: seq<Record>, fields: seq<string>)
    ensures Sound(BuildIndexes(data, fields), |data|)
  {
    var t := BuildIndexes(data, fields);
    BuildPrefixBuckets(data, fields, |data|);
    forall f, k, j | f in t && k in t[f] && 0 <= j < |t[f][k]|
      ensures t[f][k][j] < |data|
    {
      PositionsMembership(data, f, k, Count(fields, f), |data|);
      assert t[f][k][j] in Positions(data, f, k, Count(fields, f), |data|);
    }
  }

  /** A listed field has a bucket for a key exactly when some record's value
      for that field has the key; the bucket is then non-empty. */
  lemma BuildBucketKeys(data: seq<Record>, fields: seq<string>, f: string, k: string)
    requires |data| > 0 && f in fields
    ensures f in BuildIndexes(data, fields)
    ensures k in BuildIndexes(data, fields)[f] <==> exists i :: 0 <= i < |data| && KeyOf(data[i], f) == k
  {
    var t := BuildIndexes(data, fields);
    BuildPrefixBuckets(data, fields, |data|);
    PositionsMembership(data, f, k, Count(fields, f), |data|);
    assert Count(fields, f) > 0;
    if exists i :: 0 <= i < |data| && KeyOf(data[i], f) == k {
      var i :| 0 <= i < |data| && KeyOf(data[i], f) == k;
      assert i in Bucket(t, f, k);
    }
    if k in t[f] {
      assert t[f][k][0] in Bucket(t, f, k);
    }
  }

  /** Every record position lies in exactly one bucket of each listed field:
      the bucket keyed by its own value's key (`"undefined"` when missing). */
  lemma BuildExactlyOneBucket(data: seq<Record>, fields: seq<string>, f: string, i: nat)
    requires f in fields && i < |data|
    ensures f in BuildIndexes(data, fields)
    ensures KeyOf(data[i], f) in BuildIndexes(data, fields)[f]
    ensures i in BuildIndexes(data, fields)[f][KeyOf(data[i], f)]
    ensures forall k :: k in BuildIndexes(data, fields)[f] && i in BuildIndexes(data, fields)[f][k]
              ==> k == KeyOf(data[i], f)
  {
    var t := BuildIndexes(data, fields);
    BuildPrefixBuckets(data, fields, |data|);
    assert Count(fields, f) > 0;
    PositionsMembership(data, f, KeyOf(data[i], f), Count(fields, f), |data|);
    assert i in Bucket(t, f, KeyOf(data[i], f));
    forall k | k in t[f] && i in t[f][k]
      ensures k == KeyOf(data[i], f)
    {
      PositionsMembership(data, f, k, Count(fields, f), |data|);
      assert i in Bucket(t, f, k);
    }
  }

  /** For a field listed once, every bucket lists positions in strictly
      increasing data order. */
  lemma BuildBucketOrdered(data: seq<Record>, fields: seq<string>, f: string, k: string)
    requires Count(fields, f) == 1
    ensures StrictlyIncreasing(Bucket(BuildIndexes(data, fields), f, k))
  {
    BuildPrefixBuckets(data, fields, |data|);
    PositionsAscending(data, f, k, |data|);
  }

  /** Whatever the number of listings, every bucket is in non-decreasing
      data order. */
  lemma BuildBucketSorted(data: seq<Record>, fields: seq<string>, f: string, k: string)
    ensures NonDecreasing(Bucket(BuildIndexes(data, fields), f, k))
  {
    BuildPrefixBuckets(data, fields, |data|);
    PositionsNonDecreasing(data, f, k, Count(fields, f), |data|);
  }

  /** A bucket holds each position whose record has the bucket's key once per
      listing of the field, and no other position. */
  lemma BuildBucketMultiplicity(data: seq<Record>, fields: seq<string>, f: string, k: string, i: nat)
    ensures multiset(Bucket(BuildIndexes(data, fields), f, k))[i]
            == if i < |data| && KeyOf(data[i], f) == k then Count(fields, f) else 0
  {
    BuildPrefixBuckets(data, fields, |data|);
    PositionsMultiplicity(data, f, k, Count(fields, f), |data|, i);
  }

  /** A field listed twice receives every position twice: the code keeps one
      builder per listing, and both push into the same bucket. */
  lemma DuplicateFieldDoublesPositions()
    ensures Bucket(BuildIndexes([map["a" := Str("x")]], ["a", "a"]), "a", "x") == [0, 0]
  {
    var data: seq<Record> := [map["a" := Str("x")]];
    BuildPrefixBuckets(data, ["a", "a"], 1);
    assert Count(["a", "a"], "a") == 2;
    assert KeyOf(data[0], "a") == "x";
  }

  /** Round trip: for a field listed once and a non-empty dataset, looking a
      value up in the built index returns exactly the records whose value has
      the same key, in data order. */
  lemma FindBuildRoundTrip(data: seq<Record>, fields: seq<string>, f: string, v: Option<Value>)
    requires |data| > 0 && f != "" && Count(fields, f) == 1
    ensures Sound(BuildIndexes(data, fields), |data|)
    ensures Find(BuildIndexes(data, fields), Some(f), v, data) == Ok(Filter(data, f, ToKey(v)))
  {
    var t := BuildIndexes(data, fields);
    var k := ToKey(v);
    BuildSound(data, fields);
    BuildPrefixBuckets(data, fields, |data|);
    assert f in fields;
    PositionsMembership(data, f, k, 1, |data|);
    var p := Positions(data, f, k, 1, |data|);
    assert forall j :: 0 <= j < |p| ==> p[j] < |data| by {
      forall j | 0 <= j < |p| ensures p[j] < |data| {
        assert p[j] in p;
      }
    }
    ProjectPositions(data, f, k, |data|);
  }

  /** Looking up a field that is not indexed fails rather than returning an
      empty list, and so does every lookup in the index of an empty dataset. */
  lemma FindUnindexedFails(data: seq<Record>, fields: seq<string>, f: string, v: Option<Value>)
    requires f != "" && (|data| == 0 || f !in fields)
    ensures Sound(BuildIndexes(data, fields), |data|)
    ensures Find(BuildIndexes(data, fields), Some(f), v, data) == Err(UnknownIndex(f))
  {
    BuildSound(data, fields);
  }

  /** A listed field and a value no record holds give an empty result. */
  lemma FindUnknownValueEmpty(data: seq<Record>, fields: seq<string>, f: string, v: Option<Value>)
    requires |data| > 0 && f != "" && f in fields
    requires forall i :: 0 <= i < |data| ==> KeyOf(data[i], f) != ToKey(v)
    ensures Sound(BuildIndexes(data, fields), |data|)
    ensures Find(BuildIndexes(data, fields), Some(f), v, data) == Ok([])
  {
    BuildSound(data, fields);
    BuildBucketKeys(data, fields, f, ToKey(v));
  }

  /** The users example: indexing on `user` and `active`, the lookup
      `active: true` returns only barney's record. */
  lemma UsersActiveLookup()
    ensures var barney: Record := map["user" := Str("barney"), "age" := Num(36), "active" := Bool(true)];
            var fred: Record := map["user" := Str("fred"), "age" := Num(40), "active" := Bool(false)];
            Sound(BuildIndexes([barney, fred], ["user", "active"]), 2)
            && Find(BuildIndexes([barney, fred], ["user", "active"]), Some("active"), Some(Bool(true)), [barney, fred])
               == Ok([barney])
  {
    var barney: Record := map["user" := Str("barney"), "age" := Num(36), "active" := Bool(true)];
    var fred: Record := map["user" := Str("fred"), "age" := Num(40), "active" := Bool(false)];
    var data := [barney, fred];
    assert Count(["user", "active"], "active") == 1;
    FindBuildRoundTrip(data, ["user", "active"], "active", Some(Bool(true)));
    assert KeyOf(barney, "active") == "true";
    assert KeyOf(fred, "active") == "false";
    assert Select(data, "active", "true", 1) == [barney];
    assert Select(data, "active", "true", 2) == [barney];
  }

  /** A record lacking the indexed field is found by looking up `undefined`. */
  lemma MissingFieldLookup()
    ensures var withId: Record := map["id" := Str("1342108")];
            var withoutId: Record := map["name" := Str("x")];
            Sound(BuildIndexes([withId, withoutId], ["id"]), 2)
            && Find(BuildIndexes([withId, withoutId], ["id"]), Some("id"), None, [withId, withoutId])
               == Ok([withoutId])
  {
    var withId: Record := map["id" := Str("1342108")];
    var withoutId: Record := map["name" := Str("x")];
    var data := [withId, withoutId];
    assert Count(["id"], "id") == 1;
    FindBuildRoundTrip(data, ["id"], "id", None);
    assert KeyOf(withId, "id") == "1342108";
    assert KeyOf(withoutId, "id") == "undefined";
    assert Select(data, "id", "undefined", 1) == [];
    assert Select(data, "id", "undefined", 2) == [withoutId];
  }

  /** `build` depends on its input only through the data and the field list. */
  lemma BuildIgnoresItemsPath(data: seq<Record>, indexes: Option<seq<string>>, p1: Option<string>, p2: Option<string>)
    ensures Build(BuildInput(data, p1, indexes)) == Build(BuildInput(data, p2, indexes))
    ensures Build(BuildInput(data, p1, indexes)) == BuildIndexes(data, indexes.GetOr([]))
  {
  }
}

=== FILE: storage.dfy ===
/** The two-tier store of lib/storage.js: an in-memory map in front of a disk
    map. The disk's replies are parameters: a write or a read either succeeds
    or fails with an I/O error message chosen by the environment. */
module Storage {
  import opened Common

  /** A disk read of an absent key fails with NotFound; any other disk
      failure carries the engine's message. */
  datatype DiskError = NotFound(key: string) | IoError(message: string)

  /** The store: where the disk database lives, the memory tier and the disk tier. */
  datatype Store<V> = Store(path: string, memory: map<string, V>, disk: map<string, V>)

  /** The new state of the store and what the returned promise settles with. */
  datatype Step<V> = Step(store: Store<V>, result: Result<V, DiskError>)

  const DatabaseName: string := "/node-http-cache.db"

  /** Every value held in memory is the value the disk holds for that key. */
  predicate Coherent<V(==)>(s: Store<V>)
  {
    forall k :: k in s.memory ==> k in s.disk && s.disk[k] == s.memory[k]
  }

  /** `init`: opens the disk database under `location` (whose current contents
      are `existing`) and starts with an empty memory tier. */
  function Init<V>(location: string, existing: map<string, V>): (s: Store<V>)
    ensures |s.path| == |location| + |DatabaseName|
    ensures s.path[..|location|] == location && s.path[|location|..] == DatabaseName
    ensures s.memory == map[] && s.disk == existing
    ensures Coherent(s)
  {
    Store(location + DatabaseName, map[], existing)
  }

  /** `put`: the memory entry is written whatever the disk replies; the promise
      resolves with the value when the disk write succeeds and rejects with
      the disk's error otherwise. A failed write leaves the disk as it was and
      is not undone in memory. */
  function Put<V>(s: Store<V>, k: string, v: V, writeFault: Option<string>): (r: Step<V>)
    ensures r.store.path == s.path
    ensures k in r.store.memory && r.store.memory[k] == v
    ensures r.result.Ok? <==> writeFault.None?
    ensures r.result.Ok? ==> r.result.value == v && k in r.store.disk && r.store.disk[k] == v
    ensures r.result.Err? ==> r.result.error == IoError(writeFault.value) && r.store.disk == s.disk
    ensures forall x :: x != k ==> (x in r.store.memory <==> x in s.memory)
    ensures forall x :: x != k && x in s.memory ==> r.store.memory[x] == s.memory[x]
    ensures forall x :: x != k ==> (x in r.store.disk <==> x in s.disk)
    ensures forall x :: x != k && x in s.disk ==> r.store.disk[x] == s.disk[x]
  {
    var memory := s.memory[k := v];
    match writeFault
    case None => Step(Store(s.path, memory, s.disk[k := v]), Ok(v))
    case Some(msg) => Step(Store(s.path, memory, s.disk), Err(IoError(msg)))
  }

  /** `get`: a truthy memory entry answers without consulting the disk;
      otherwise the disk is read, and a value found there is copied into
      memory and returned. A failed read rejects and changes nothing. */
  function Get<V>(s: Store<V>, k: string, truthy: V -> bool, readFault: Option<string>): (r: Step<V>)
    ensures r.store.path == s.path && r.store.disk == s.disk
    ensures k in s.memory && truthy(s.memory[k]) ==> r == Step(s, Ok(s.memory[k]))
    ensures !(k in s.memory && truthy(s.memory[k])) ==>
              && (readFault.Some? ==> r == Step(s, Err(IoError(readFault.value))))
              && (readFault.None? && k !in s.disk ==> r == Step(s, Err(NotFound(k))))
              && (readFault.None? && k in s.disk ==>
                    r.result == Ok(s.disk[k]) && r.store.memory == s.memory[k := s.disk[k]])
    ensures r.result.Err? ==> r.store == s
    ensures forall x :: x != k ==> (x in r.store.memory <==> x in s.memory)
    ensures forall x :: x != k && x in s.memory ==> r.store.memory[x] == s.memory[x]
  {
    if k in s.memory && truthy(s.memory[k]) then Step(s, Ok(s.memory[k]))
    else if readFault.Some? then Step(s, Err(IoError(readFault.value)))
    else if k in s.disk then Step(s.(memory := s.memory[k := s.disk[k]]), Ok(s.disk[k]))
    else Step(s, Err(NotFound(k)))
  }

  /** `getKeys`: the memory keys when memory holds any entry, otherwise every
      key on disk. */
  function GetKeys<V>(s: Store<V>): (keys: set<string>)
    ensures s.memory != map[] ==> keys == s.memory.Keys
    ensures s.memory == map[] ==> keys == s.disk.Keys
  {
    if s.memory.Keys != {} then s.memory.Keys else s.disk.Keys
  }

  // ---------------------------------------------------------------------------
  // How the two tiers relate across operations
  // ---------------------------------------------------------------------------

  /** Read your writes: after `put`, `get` of the same key returns the written
      (truthy) value, whether or not the disk write succeeded and whatever the
      disk would answer. */
  lemma PutThenGet<V>(s: Store<V>, k: string, v: V, writeFault: Option<string>,
                      truthy: V -> bool, readFault: Option<string>)
    requires truthy(v)
    ensures Get(Put(s, k, v, writeFault).store, k, truthy, readFault).result == Ok(v)
  {
  }

  /** A successful `put` keeps memory and disk in agreement. */
  lemma PutPreservesCoherence<V>(s: Store<V>, k: string, v: V)
    requires Coherent(s)
    ensures Coherent(Put(s, k, v, None).store)
  {
  }

  /** Every `get`, hit, miss or failure, keeps memory and disk in agreement:
      memory is only ever filled from the disk. */
  lemma GetPreservesCoherence<V>(s: Store<V>, k: string, truthy: V -> bool, readFault: Option<string>)
    requires Coherent(s)
    ensures Coherent(Get(s, k, truthy, readFault).store)
  {
  }

  /** A failed `put` leaves the tiers disagreeing: memory holds the new value
      while the disk keeps the old one (or none). */
  lemma FailedPutBreaksCoherence<V>(s: Store<V>, k: string, v: V, msg: string)
    requires k !in s.disk || s.disk[k] != v
    ensures !Coherent(Put(s, k, v, Some(msg)).store)
    ensures Put(s, k, v, Some(msg)).result == Err(IoError(msg))
  {
    var r := Put(s, k, v, Some(msg)).store;
    assert k in r.memory && r.memory[k] == v;
  }

  /** In a coherent store every key `getKeys` lists is on disk, and with an
      empty memory tier it lists all of them. */
  lemma GetKeysOnDisk<V>(s: Store<V>)
    requires Coherent(s)
    ensures GetKeys(s) <= s.disk.Keys
    ensures s.memory == map[] ==> GetKeys(s) == s.disk.Keys
  {
  }

  /** Once memory holds one key, `getKeys` no longer reports keys that are
      only on disk. */
  lemma GetKeysMissesDiskOnlyKeys(v: int, w: int)
    ensures var s := Store("/tmp" + DatabaseName, map["a" := v], map["a" := v, "b" := w]);
            Coherent(s) && "b" in s.disk && "b" !in GetKeys(s)
  {
    var s := Store("/tmp" + DatabaseName, map["a" := v], map["a" := v, "b" := w]);
    assert s.memory.Keys == {"a"};
    assert "a" != "b";
  }

  /** A repeated `get` of a key just read successfully, with a truthy value,
      is served from memory with the same value, whatever the disk would now
      answer. */
  lemma GetTwiceAgrees<V>(s: Store<V>, k: string, truthy: V -> bool, f1: Option<string>, f2: Option<string>)
    requires Get(s, k, truthy, f1).result.Ok?
    requires truthy(Get(s, k, truthy, f1).result.value)
    ensures Get(Get(s, k, truthy, f1).store, k, truthy, f2) == Step(Get(s, k, truthy, f1).store, Get(s, k, truthy, f1).result)
  {
  }
}

=== FILE: values.dfy ===
/** The records the cache stores: parsed JSON objects, and the way JavaScript
    turns a field's value into the text key of an index bucket. */
module Values {
  import opened Common

  /** The safe integers, |n| <= 2^53 - 1 (`Number.isSafeInteger`):
      inside this range `String(n)` is the plain decimal rendering and
      `JSON.parse` keeps distinct integers distinct. */
  type SafeInteger = n: int | -0x1F_FFFF_FFFF_FFFF <= n <= 0x1F_FFFF_FFFF_FFFF

  /** A parsed JSON value (numbers restricted to safe integers). */
  datatype Value =
    | Null
    | Bool(b: bool)
    | Num(n: SafeInteger)
    | Str(s: string)
    | Arr(items: seq<Value>)
    | Obj(fields: map<string, Value>)

  /** One element of a fetched dataset: a JSON object, field name to value. */
  type Record = map<string, Value>

  /** `element[field]`: the field's value, or `undefined` when the record lacks it. */
  function FieldOf(r: Record, f: string): (v: Option<Value>)
    ensures v.Some? <==> f in r
    ensures v.Some? ==> v.value == r[f]
  {
    if f in r then Some(r[f]) else None
  }

  /** JavaScript's `String(v)` for a JSON value, which is also the property key
      an object uses when it is indexed by `v`. */
  function ValueKey(v: Value): string
    decreases v
  {
    match v
    case Null => "null"
    case Bool(b) => if b then "true" else "false"
    case Num(n) => IntToString(n)
    case Str(s) => s
    case Arr(items) =>
      // Array.prototype.join renders null elements as the empty string
      Join(seq(|items|, i requires 0 <= i < |items| =>
        if items[i].Null? then "" else ValueKey(items[i])))
    case Obj(_) => "[object Object]"
  }

  /** The strings joined with commas, as `Array.prototype.join` does. */
  function Join(parts: seq<string>): string
  {
    if |parts| == 0 then ""
    else if |parts| == 1 then parts[0]
    else parts[0] + "," + Join(parts[1..])
  }

  /** The property key for an optional value; `undefined` becomes `"undefined"`. */
  function ToKey(v: Option<Value>): (k: string)
    ensures v.None? ==> k == "undefined"
    ensures v.Some? && v.value.Str? ==> k == v.value.s
  {
    match v
    case None => "undefined"
    case Some(x) => ValueKey(x)
  }

  /** A number's key reads back as the number: an optional minus sign, then
      the decimal digits of its magnitude. */
  lemma NumberKeyParses(n: SafeInteger)
    ensures var k := ValueKey(Num(n));
            && (n >= 0 ==> ParseNat(k) == n)
            && (n < 0 ==> k[0] == '-' && |k| > 1 && ParseNat(k[1..]) == -n)
  {
    if n >= 0 {
      NatToStringParses(n);
    } else {
      NatToStringParses(-n);
      assert ValueKey(Num(n))[1..] == NatToString(-n);
    }
  }

  /** Distinct values can share a key, because keys are JavaScript's
      `String(v)`: every number and its decimal string (for instance -20 and
      "-20"), `undefined` and "undefined", `null` and "null", each boolean
      and its name, and any two objects. */
  lemma KeysCollide(n: SafeInteger, a: map<string, Value>, b: map<string, Value>)
    ensures ToKey(Some(Num(n))) == ToKey(Some(Str(IntToString(n))))
    ensures ToKey(Some(Num(-20))) == ToKey(Some(Str("-20")))
    ensures ToKey(None) == ToKey(Some(Str("undefined")))
    ensures ToKey(Some(Null)) == ToKey(Some(Str("null")))
    ensures ToKey(Some(Bool(true))) == ToKey(Some(Str("true")))
    ensures ToKey(Some(Bool(false))) == ToKey(Some(Str("false")))
    ensures ToKey(Some(Obj(a))) == ToKey(Some(Obj(b)))
  {
    assert NatToString(20) == "20" by {
      assert NatToString(2) == "2";
    }
  }

  /** An array's key joins its elements' keys with commas, a `null` element
      contributing the empty string: the empty array has the empty key, a
      one-element array its element's key, two strings their comma-joined
      text, and `[1, null, "x"]` collides with the string "1,,x". */
  lemma ArrayKeyJoins(s: string, t: string, v: Value)
    ensures ToKey(Some(Arr([]))) == ""
    ensures ToKey(Some(Arr([v]))) == if v.Null? then "" else ToKey(Some(v))
    ensures ToKey(Some(Arr([Str(s), Str(t)]))) == s + "," + t
    ensures ToKey(Some(Arr([Num(1), Null, Str("x")]))) == ToKey(Some(Str("1,,x")))
  {
    var items := [Num(1), Null, Str("x")];
    var parts := seq(|items|, i requires 0 <= i < |items| => if items[i].Null? then "" else ValueKey(items[i]));
    assert parts == ["1", "", "x"];
    assert Join(["x"]) == "x";
    assert Join(["", "x"]) == "" + "," + Join(["", "x"][1..]) == ",x";
    assert Join(["1", "", "x"]) == "1" + "," + Join(["1", "", "x"][1..]) == "1,,x";
    var two := [Str(s), Str(t)];
    assert seq(|two|, i requires 0 <= i < |two| => if two[i].Null? then "" else ValueKey(two[i])) == [s, t];
    assert Join([s, t]) == s + "," + Join([s, t][1..]);
    var one := [v];
    assert seq(|one|, i requires 0 <= i < |one| => if one[i].Null? then "" else ValueKey(one[i]))
           == [if v.Null? then "" else ValueKey(v)];
  }

  /** The bucket key a record falls into for an indexed field. */
  function KeyOf(r: Record, f: string): string
  {
    ToKey(FieldOf(r, f))
  }
}
